=== FILE: README.md ===
# Envelope game: match engine, strategies and tournaments

This project models the envelope game in Dafny and proves properties of the model.
- A player faces a list of envelopes, each holding an amount.
- A strategy opens some envelopes and keeps one.
- The match engine scores the play: what was kept, compared with the best amount the strategy still holds.
- Tournaments pit strategies against each other by comparing these scores.

The modules follow the program's three files:

| module | models |
|---|---|
| `Common` | `Option`, `Result` with the Python exceptions the code can raise, the verdict of a match, outcome tallies |
| `Strategy` | the `play` methods of the four strategies in `strategy.py` |
| `Game` | `Game.play` and `GameResult` in `Game.py`, and the ratio comparison every tournament uses |
| `Schedule` | the nested `for i … for j in range(i + 1, k)` fixture loops of `Tournament.py` |
| `Standings` | the 3/1/0 points tables those loops update |
| `DeathMatch`, `RoundRobin`, `Elimination`, `League`, `Championship` | the five tournament classes |

## How the model abstracts the program

- **Envelopes.** An envelope is its amount, a `nat`.
- **Randomness.** Calls to `random.randint(0, len - 1)` and `random.choice(list)` read a *tape* of indices supplied by the caller. The t-th draw of a play reads `tape[t]` from a list of `n - t` envelopes. Every rule draws at most once per envelope it removes, plus once for its final choice. `ValidTape` states that every index on the tape is in range.
- **Console answers.** The manual rule's `input()` answers are a scripted sequence of strings.
- **Exceptions.** Python exceptions become `Err` values (`Common.Fault`):
  - `randint(0, -1)` on an empty list, a ValueError;
  - `choice` on an empty list, an IndexError;
  - answers running out, an EOFError;
  - an attribute read on `None`, an AttributeError;
  - an index past the end of a list, an IndexError;
  - division by zero;
  - `chr` past the last code point, a ValueError.
- **Matches in tournaments.** Strategy objects are shared across matches and keep shrinking. Each match of a tournament is therefore an element of an *outcome stream*, and the stream decides it:
  - the first side's ratio is higher;
  - the second side's ratio is higher;
  - or the two are equal.

  `Game.Decide` turns two `GameResult`s into that verdict. The knockout additionally takes the side that the source's random tie-break picks.
- **Tables.** Tables are held by participant position. For participants with distinct display names, this is the source's name-keyed dictionary.

### Where the code and its docstrings differ

The model follows the code.
- **N_max keeps a random unopened envelope.** The class docstring (strategy.py:50-54) says the player keeps the last opened envelope. The code (strategy.py:62-69) pops every opened envelope and then keeps `random.choice` of the envelopes it did not open (`Strategy.NMaxPlay`). The opened ones are gone: N_max with N = 1 on [10, 50, 20] pops the 50, keeps the 10 and reports a best amount of 20 (`Game.PoppedMaximumIsForgotten`).
- **Not every championship ends with a champion.** The class docstring (Tournament.py:312-316) says the top 2 of each group go to the playoffs, which continue until there is a champion. A group of one sends one qualifier. The playoff loop pairs `qualified[i]` with `qualified[i + 1]` (Tournament.py:374-376), so an odd number of qualifiers in any round raises IndexError. Three participants in two groups form groups of 2 and 1 and end that way (`Championship.ThreeInTwoGroups`). Four participants in two groups play two semi-finals and a final (`Championship.FourInTwoGroups`).

### Other behaviour of the code

- **A play that keeps nothing.** If nothing was kept and no envelope remains, the kept and best amounts are both 0, so the result is a success with ratio 0 (Game.py:15-17, 33-37; `Game.NoSelection`).
- **The best amount ignores popped envelopes.** It is taken over what the strategy still holds and the kept envelope (Game.py:17-23).
- **Group labels run out.** `_split_into_groups` names group g `chr(ord('A') + g)` (Tournament.py:410), so more than `LabelCount` = 0x10FFFF - 65 + 1 groups raise ValueError (`Championship.Split`).
- **DeathMatch on empty lists.** DeathMatch builds both strategies on empty lists (Tournament.py:79, 86). Their plays then fail, or (N_max) keep nothing with ratio 0 (`Game.EmptyListPlays`).

## Model

| member | source | states |
|---|---|---|
| `Game.MakeResult` | Game.py:28-37 | success holds exactly when the kept amount equals the best amount; the ratio is 0 when the best amount is 0, and otherwise multiplies back to the kept amount |
| `Game.LargestFrom` | Game.py:17-20 | the scan's maximum is at least its start and every scanned amount, and is the start or one of the amounts |
| `Game.MaxAmount` | Game.py:17-23 | the best amount bounds every remaining amount and the kept one, and is 0, a remaining amount or the kept amount (never a popped one) |
| `Game.RatioInUnitInterval` | Game.py:33-37 | when the kept amount is at most the best, the ratio lies in [0, 1], and it is 0 exactly when the best or the kept amount is 0 |
| `Game.Score` | Game.py:5-25 | opened count = length before minus length after; kept amount is 0 without a selection; best bounds all held amounts; success iff kept == best; 0 <= ratio <= 1 |
| `Game.PlayGame` | Game.py:5-25 | a game fails exactly when the strategy's play fails; otherwise it scores the play, opens between 0 and n envelopes, and its best amount is 0 or one of the original envelopes |
| `Game.OpenedCounts` | Game.py:6-10 | the opened count is the number of answers before the first YES (manual), 0 (automatic), min(N, n) (N_max), and max(0, min(int(n·percent), n)) (percent) |
| `Game.NoSelection` | Game.py:12-23 | a play that keeps nothing succeeds exactly when every remaining amount is 0 (in particular when none remains), with ratio 0 |
| `Game.KeptFromList` | Game.py:17-33 | a rule that keeps an envelope still in its list succeeds exactly when no remaining envelope is worth more |
| `Game.PercentFallbackSucceeds` | strategy.py:109-121 | when nothing remaining beats the sample maximum, the percent rule's fallback is always a success |
| `Game.PercentEmptySample` | strategy.py:94-121 | with a sample size of 0 on a non-empty list, the percent rule keeps the first envelope and removes nothing |
| `Game.PoppedMaximumIsForgotten` | Game.py:17-23 | N_max with N = 1 on [10, 50, 20], popping the 50 and keeping the 10, reports best amount 20 and no success |
| `Game.PercentSampleOfFour` | strategy.py:94-95 | percent 0.34 on four envelopes gives a sample of one |
| `Game.PercentScenario` | strategy.py:93-121 | with a sample of one on [5, 100, 1, 2], sampling the 5, the rule keeps the 100, a success |
| `Game.DecideMirror` | Tournament.py:150-159 | the verdict compares ratios only: swapping the two sides swaps FirstWins and SecondWins and keeps a draw |
| `Game.VerdictOnScores` | Tournament.py:97-104 | a play that keeps the best of a pool worth something has ratio 1 and is never beaten; it draws exactly against another such play; a play that keeps nothing never wins |
| `Game.UnitRatio` | Game.py:33-37 | the ratio is 1 exactly for a success with a positive best amount |
| `Game.EmptyListPlays` | Tournament.py:79-104 | on an empty list, as DeathMatch builds its players, the manual rule raises ValueError, the automatic rule IndexError and the percent rule AttributeError, while N_max keeps nothing with ratio 0, so N_max against N_max is always a draw |
| `Strategy.Pop` | strategy.py:30 | `pop(i)` shortens the list by one, removes exactly the i-th element, and shifts the later ones down |
| `Strategy.OpenRandom` | strategy.py:62-66 | opening `count` envelopes pops exactly `count`, leaves the rest, and loses none: popped plus remaining is the original multiset |
| `Strategy.FirstYes` | strategy.py:21-25 | the stopping answer is the first whose upper-case form is YES; all earlier answers are not |
| `Strategy.ManualPlay` | strategy.py:19-32 | the rule succeeds iff a YES comes before the list and the answers run out; the list runs out first gives the randint error; the answers run out first gives the input error; the drawn envelopes before the YES are popped, and the one drawn at the YES is kept and stays in the list |
| `Strategy.AutomaticPlay` | strategy.py:43-44 | `random.choice` on an empty list raises IndexError, and only then; otherwise the list is unchanged and the kept envelope is one of it |
| `Strategy.NMaxPlay` | strategy.py:61-74 | `range(min(N, n))` pops min(N, n) envelopes for N >= 0 and none for N <= 0, leaving the rest of the list; keeps nothing exactly when none remain, otherwise keeps a remaining envelope, which stays in the list |
| `Strategy.SampleSize` | strategy.py:94-95 | `int(n * percent)` truncates toward zero: for percent >= 0 it is the largest integer at most n·percent |
| `Strategy.SampleBest` | strategy.py:96-107 | the sample maximum starts at -1 and is the first popped envelope of maximal amount; -1 with no envelope for an empty sample |
| `Strategy.FirstAbove` | strategy.py:109-117 | the scan stops at the first remaining envelope that strictly beats the bar; all earlier ones are at most the bar; with no stop, every one is at most the bar |
| `Strategy.PercentPlay` | strategy.py:93-121 | an empty list reads an attribute of None; otherwise exactly min(k, n) envelopes are popped, and an envelope of the original list is kept |
| `Strategy.PercentSelection` | strategy.py:109-121 | either the kept envelope is the first remaining one above the sample maximum, or none beats it and the sample's maximal envelope, no longer in the list, is kept |
| `Strategy.RunShrinks` | strategy.py:19-121 | every rule only removes envelopes, and what it keeps comes from the original list |
| `Schedule.Pairs` | Tournament.py:144-145 | the nested loops visit only pairs i <= a < b < k |
| `Schedule.MatchesClosedForm` | Tournament.py:144-145 | one pass of the loops plays k(k-1)/2 matches |
| `Schedule.PairsLength` | Tournament.py:144-145 | with each pair played `legs` times, a pass plays legs · k(k-1)/2 matches |
| `Schedule.PairsInvolving` | Tournament.py:144-145 | from row i on, a participant p >= i plays legs · (k-1-i) times, and one before i does not play |
| `Schedule.EveryoneInvolved` | Tournament.py:263-265 | in a full pass, every participant plays legs · (k-1) matches |
| `Schedule.PairsTimes` | Tournament.py:263-265 | every pair a < b < k occurs exactly `legs` times, and no other fixture occurs |
| `Schedule.PairsInOrder` | Tournament.py:144-145 | the loops visit pairs in lexicographic order of positions |
| `Standings.FreshTotal` | Tournament.py:250-258 | a new table has one all-zero row per participant, so its games, wins, losses, draws and points columns each sum to 0 |
| `Standings.PointsPerGame` | Tournament.py:270-290 | a row whose games split into wins, losses and draws, with points 3·wins + draws, holds at most 3 points per game |
| `Standings.Record` | Tournament.py:270-290 | one match changes only its two rows: both play one more game; 3 points to a strict winner, 0 to the loser, 1 each on a draw; balanced rows stay balanced |
| `Standings.RecordTotal` | Tournament.py:270-290 | one match adds 3 points, a win and a loss for a strict result, and 2 points and two draws for a draw |
| `Standings.PlayAll` | Tournament.py:263-290 | after a fixture list, each participant's games grow by the number of fixtures it is in; balanced rows stay balanced |
| `Standings.PlayAllTotals` | Tournament.py:150-159 | over a fixture list, points grow by 3 per match less 1 per draw; wins and losses each grow by the strict results; draws by 2 per draw |
| `Standings.PointsColumn` | Tournament.py:136-176 | the standings list each participant's points, and they add up to the points total |
| `RoundRobin.Fixtures` | Tournament.py:142-145 | `rounds` passes give rounds · k(k-1)/2 fixtures, each between two different participants in position order |
| `RoundRobin.FixturesInvolving` | Tournament.py:142-145 | each participant plays k-1 matches per round |
| `RoundRobin.RoundFixtures` | Tournament.py:144-145 | in one round every pair i < j < k meets exactly once, in positional order |
| `RoundRobin.History` | Tournament.py:161-174 | the n-th history line records the n-th fixture and outcome, under match number n + 1 and a round between 1 and `rounds` |
| `RoundRobin.HistoryRound` | Tournament.py:142-174 | history line m is logged in the round r whose fixtures hold match m: after the first r - 1 rounds and within the first r |
| `RoundRobin.HistoryQuotient` | Tournament.py:161-163 | history line m carries round m / (k(k-1)/2) + 1, the `r+1` of its pass of the outer loop |
| `RoundRobin.Table` | Tournament.py:136-159 | every participant plays rounds · (k-1) games, and every row is balanced |
| `RoundRobin.Run` | Tournament.py:135-176 | the standings are each participant's points; the history has one line per match, numbered from 1, recording fixture and verdict, in the round whose block of k(k-1)/2 matches holds it; a count below 1 plays no round |
| `RoundRobin.RoundNumbers` | Tournament.py:142-163 | the round logged for match m of the run is m / (k(k-1)/2) + 1 |
| `RoundRobin.NoRounds` | Tournament.py:142 | `range(rounds)` with rounds <= 0 plays nothing: empty history and 0 points for everyone |
| `RoundRobin.StandingsTotals` | Tournament.py:150-159 | the standings add up to 3 per match less 1 per draw, and no one exceeds 3 points per game played |
| `League.LeagueFixtures` | Tournament.py:263-266 | every unordered pair meets exactly twice, in adjacent home and away legs, k(k-1) matches in all |
| `League.Table` | Tournament.py:260-290 | each participant ends with 2(k-1) games, wins + losses + draws = games, and points = 3·wins + draws |
| `League.TableTotals` | Tournament.py:270-290 | total wins = total losses = the strict results; total draws = 2 per draw; total points = 3 per match less 1 per draw |
| `League.Run` | Tournament.py:260-309 | returns the final table and one history line per match: line m records match number m + 1, the two sides of the m-th fixture and its verdict, in fixture order |
| `DeathMatch.Run` | Tournament.py:89-123 | the counters tally the strict wins of the matches played; play stops at the first match after which a counter reaches the goal; one history line per match; the winner is the side `max` picks, the first on a tie; for goal >= 1 the winner's counter equals the goal and the other is lower |
| `Elimination.Winner` | Tournament.py:211-216 | a strict result sends its winner on; a draw sends the side the random choice picks; the winner is always one of the two |
| `Elimination.Match` | Tournament.py:211-229 | the log line carries the round number, names both sides and the winner, and the other side as loser |
| `Elimination.PlayPairs` | Tournament.py:206-232 | players 2m and 2m+1 meet in the m-th match of the round; its winner is the m-th to move on and the one its log line names; the players moving on are drawn from the round's players, none more often than it appears among them |
| `Elimination.PlayRound` | Tournament.py:193-236 | a round of n players plays n/2 matches and sends (n+1)/2 players on, all from the round |
| `Elimination.Bye` | Tournament.py:199-207 | with an odd count the first player opens the next round and the rest pair up (1, 2), (3, 4), …; with an even count the pairs are (0, 1), (2, 3), … |
| `Elimination.ConsecutiveByes` | Tournament.py:199-203 | with 4j + 1 players (j >= 1) the first player gets the bye in two rounds running |
| `Elimination.Rounds` | Tournament.py:193-238 | n players play exactly n - 1 matches; the champion is one of them, and the last bracket entry is the champion alone |
| `Elimination.Run` | Tournament.py:188-240 | an empty field fails with IndexError; otherwise n - 1 log lines and a champion from the field |
| `Championship.GroupSize` | Tournament.py:404-406 | the group size is the number of participants over the number of groups, rounded up |
| `Championship.Fill` | Tournament.py:408-415 | the filling loop yields one list per group, none larger than the group size |
| `Championship.FillKeepsOrder` | Tournament.py:408-415 | with room for everyone, the groups concatenate back to the input list |
| `Championship.FillFrontLoaded` | Tournament.py:408-415 | a group receives members only once every earlier group is full |
| `Championship.Split` | Tournament.py:402-416 | 0 groups divide by zero; more groups than `chr` has labels raise ValueError; a negative count yields no groups; otherwise exactly `groups_count` groups, none larger than the group size |
| `Championship.SplitPartitions` | Tournament.py:402-416 | the groups partition the input in order, trailing groups may be empty, and no later group starts before the earlier ones are full |
| `Championship.GroupTable` | Tournament.py:330-360 | in a group of s, everyone plays s - 1 games, and points = 3·wins + draws |
| `Championship.GroupStage` | Tournament.py:330-360 | each group's table has a row per member, each member plays everyone else in the group once, and every row is balanced |
| `Championship.Place` | Tournament.py:364 | a new position goes after every ranked entry with at least its points and before the first with fewer |
| `Championship.InsertPermutes` | Tournament.py:364 | an insertion step keeps every ranked position and adds the new one, each exactly once, all positions of the table |
| `Championship.RankStep` | Tournament.py:364 | one insertion step of the sort keeps the list ranked |
| `Championship.InsertRanked` | Tournament.py:364 | inserting a position later than every ranked one keeps the list ranked |
| `Championship.Rank` | Tournament.py:364 | the ranking has one entry per position, each a position of the table |
| `Championship.RankOrdered` | Tournament.py:364 | the ranking is by points, highest first, and keeps table order among equal points, as Python's stable `sorted(..., reverse=True)` does; so no position appears twice |
| `Championship.RankCovers` | Tournament.py:364 | every position of the table appears in the ranking, which with no repeats makes it a permutation |
| `Championship.Qualifiers` | Tournament.py:362-368 | a group sends min(2, size) of its members |
| `Championship.FirstQualifier` | Tournament.py:364-367 | the first qualifier has the most points, and no earlier member has as many |
| `Championship.SecondQualifier` | Tournament.py:364-367 | the second qualifier is someone else, with the most points among the others, and no earlier other member has as many |
| `Championship.FindStrategy` | Tournament.py:418-422 | the first participant with the name, or None exactly when no participant has it |
| `Championship.PlayoffWinner` | Tournament.py:380-386 | a strict win sends that side on: the first side on a first-side win, the second on a second-side win; the second side goes on only after its strict win; a draw goes to the first-listed side |
| `Championship.Pairing` | Tournament.py:374-390 | qualifiers 2m and 2m+1 meet in the m-th playoff match, whose line records both and the winner; the winners are drawn from the qualifiers, none more often than it appears among them |
| `Common.PairwiseDrawn` | Tournament.py:374-390 | if each element of a list is one side of its pair, the list is drawn from the paired list |
| `Championship.PlayoffRound` | Tournament.py:372-392 | a missing name in a pair reads from None; otherwise an odd count reads past the end; the round succeeds exactly when all names are found and the count is even |
| `Championship.Playoffs` | Tournament.py:371-394 | with every name found, the playoffs finish exactly when the qualifier count is a power of two; they then play count - 1 matches, and the champion is a qualifier |
| `Championship.PlayoffsFirstRound` | Tournament.py:372-388 | the first playoff line m pairs `qualified[2m]` with `qualified[2m + 1]` of the list the playoffs start from |
| `Championship.QualifierCount` | Tournament.py:362-368 | at most two qualifiers per group |
| `Championship.Qualified` | Tournament.py:362-368 | the qualified list has min(2, size) names per group, each a member of some group |
| `Championship.QualifiedAt` | Tournament.py:362-368 | group j's top names sit at positions QualifierCount(groups[..j]) + i of the qualified list, in the order of the group's ranking |
| `Championship.PickedAt` | Tournament.py:366-368 | `extend` of each group's picks in turn places group j's picks right after those of the groups before it |
| `Championship.OffsetCounts` | Tournament.py:366-368 | the place where group j's picks start is the qualifier count of the groups before it |
| `Championship.QualifiedKnown` | Tournament.py:375-378 | `find_strategy` finds every qualifier |
| `Championship.QualifiedPlayoffs` | Tournament.py:371-394 | every qualifier is found among the participants, and a finished playoff on the qualified list crowns one of them after pairing the list in order in its first round |
| `Championship.Knockout` | Tournament.py:336-394 | after the draw, the run finishes exactly when the qualifier count is a power of two, and otherwise reads past the end of the list; it keeps the groups and their tables, plays count - 1 playoff matches on the qualified list, whose first round pairs qualifiers 2m and 2m + 1, and crowns one of the qualifiers |
| `Championship.Run` | Tournament.py:325-400 | 0 groups divide by zero, more groups than labels raise ValueError and a negative count ends in IndexError; otherwise the run finishes exactly when the qualifier count is a power of two, with count - 1 playoff matches whose first round pairs qualifiers 2m and 2m + 1 of the qualified list, and a champion who is one of the group qualifiers |
| `Championship.ThreeInTwoGroups` | Tournament.py:372-376 | three participants in two groups form groups [x, y] and [z], and the run ends in IndexError |
| `Championship.FourInTwoGroups` | Tournament.py:371-394 | four participants in two groups finish after three playoff matches |

## Left out

- Console and file I/O:
  - every `print`;
  - the console prompts, whose answers are scripted;
  - `save_log_csv` (Tournament.py:45-52).
- DeathMatch's console choice of the two strategy classes (Tournament.py:66-88). The model starts from two given participants and a stream of their match verdicts. In the source both strategies hold empty lists (Tournament.py:79, 86). So a DeathMatch raises, or, for N_max against N_max, draws 0-0 under one dictionary key forever (`Game.EmptyListPlays`). The stream abstracts this away.
- The probability distributions of `random`. Draws are caller-chosen indices; `ValidTape` only says they are in range.
- Float arithmetic:
  - `ratio` is an exact real;
  - `int(len * percent)` truncates the exact product, so float rounding of the product is not modelled.
- `str.upper` beyond ASCII letters. Other characters are left unchanged.
- The `Envelope` class, which is not part of this model. An envelope is its amount and is assumed truthy.
- The `display` methods (strategy.py:34-35, 46-47, 76-77, 123-127), used as participant names. BaseStrategy's and Automatic_BaseStrategy's raise AttributeError while nothing is selected (`selected_envelope` starts as `None`, strategy.py:6). DeathMatch, RoundRobin, League and Championship call `display()` on every participant before any play (Tournament.py:89, 138, 252, 334), so in the source such a participant ends those tournaments there. The knockout calls it before a play only for the bye player of an odd round (Tournament.py:202); otherwise its first call comes after both plays of a match (Tournament.py:208-222). The percent strategy's prints and returns `None`, and N_max's returns a fixed description. The model instead identifies participants by distinct names (or by position). Name collisions, which would merge dictionary entries in the source, are not modelled.
- `Championship.Run`: the group tables carry a games column the source does not keep. The labels `chr(ord('A') + g)` themselves are not kept. Up to `LabelCount` groups they are distinct and created in order, so the groups are held as a sequence; past that `chr` raises, and the model returns that fault.
- Real envelope state threaded through tournaments. The strategy objects are shared and never reset, and each match is an element of an outcome stream instead.
- History lines: they keep positions or names and the verdict, not the ratios or kept amounts of the two plays.
- `DeathMatch.Run`: the source loops until a counter reaches the goal. With a finite outcome stream, the model reports `finished == false` if the stream runs out first.
- Outcome-stream lengths are preconditions of the tournament functions:
  - `RoundRobin.Run` and `League.Run` take exactly the matches their schedules play;
  - `Elimination.Run` takes at least n - 1 calls, one per match, and ignores the rest;
  - `Championship.Run` takes one stream per group and enough playoff verdicts.
- `Elimination.Winner`: a draw's random choice between the two orders is given per match as `firstOnTie`.

=== FILE: championship.dfy ===
/**
  ChampionshipTournament (Tournament.py:317-422): the participants are split
  into `groups_count` groups in input order, every group plays one
  round-robin, the top two of each group by points (a stable descending sort)
  qualify, and the qualifiers meet in knockout rounds of consecutive pairs,
  where equal ratios favour the first-listed side. Participants are known by
  their display names, which are assumed distinct, so the name-keyed tables of
  the source are the positional tables here.
 */
module Championship {
  import opened Common
  import opened Schedule
  import opened Standings

  // ---------------------------------------------------------------------------
  // _split_into_groups

  /** The group size: the number of participants divided by the number of
      groups, rounded up. */
  function GroupSize(n: nat, groups: nat): (size: nat)
    requires groups > 0
    ensures groups * size >= n
    ensures size > 0 ==> groups * (size - 1) < n
  {
    if n % groups != 0 then n / groups + 1 else n / groups
  }

  /** The filling loop from the current position on: each of the `groups`
      groups takes up to `size` of the names not yet placed. */
  function Fill(names: seq<Name>, groups: nat, size: nat): (r: seq<seq<Name>>)
    ensures |r| == groups
    ensures forall j :: 0 <= j < |r| ==> |r[j]| <= size
    decreases groups
  {
    if groups == 0 then []
    else
      var take := Min(size, |names|);
      [names[..take]] + Fill(names[take..], groups - 1, size)
  }

  /** The concatenation of a list of groups. */
  function Flatten(gs: seq<seq<Name>>): seq<Name> {
    if |gs| == 0 then [] else gs[0] + Flatten(gs[1..])
  }

  /** With room for every name, the groups hold the names in input order. */
  lemma {:induction false} FillKeepsOrder(names: seq<Name>, groups: nat, size: nat)
    requires groups * size >= |names|
    ensures Flatten(Fill(names, groups, size)) == names
    decreases groups
  {
    if groups > 0 {
      var take := Min(size, |names|);
      assert (groups - 1) * size == groups * size - size;
      FillKeepsOrder(names[take..], groups - 1, size);
      assert names == names[..take] + names[take..];
    }
  }

  /** A group is only started once every earlier group is full. */
  lemma {:induction false} FillFrontLoaded(names: seq<Name>, groups: nat, size: nat)
    ensures forall i, j :: 0 <= i < j < groups && |Fill(names, groups, size)[j]| > 0 ==>
              |Fill(names, groups, size)[i]| == size
    decreases groups
  {
    if groups > 0 {
      var take := Min(size, |names|);
      FillFrontLoaded(names[take..], groups - 1, size);
      var r := Fill(names, groups, size);
      var rest := Fill(names[take..], groups - 1, size);
      forall i, j | 0 <= i < j < groups && |r[j]| > 0
        ensures |r[i]| == size
      {
        assert r[j] == rest[j - 1];
        if i > 0 {
          assert r[i] == rest[i - 1];
        } else if take < size {
          EmptyAfterShort(names[take..], groups - 1, size, j - 1);
        }
      }
    }
  }

  /** Once the names are used up, every later group is empty. */
  lemma {:induction false} EmptyAfterShort(names: seq<Name>, groups: nat, size: nat, j: nat)
    requires |names| == 0 && j < groups
    ensures Fill(names, groups, size)[j] == []
    decreases groups
  {
    if j > 0 {
      EmptyAfterShort(names, groups - 1, size, j - 1);
    }
  }

  /** The number of groups that get a label: `chr(ord('A') + g)` exists for
      code points up to 0x10FFFF, so for g from 0 up to LabelCount - 1. */
  const LabelCount: int := 0x10FFFF - 'A' as int + 1

  /** _split_into_groups: a ZeroDivisionError for 0 groups, no groups at all
      for a negative count (range over a negative number is empty), a
      ValueError from `chr` once the count outruns the labels, and otherwise
      `groups_count` groups of at most GroupSize names, filled in input
      order. */
  function Split(names: seq<Name>, groupsCount: int): (r: Result<seq<seq<Name>>>)
    ensures r == Err(ZeroDivision) <==> groupsCount == 0
    ensures r == Err(CharRange) <==> groupsCount > LabelCount
    ensures groupsCount < 0 ==> r == Ok([])
    ensures 0 < groupsCount <= LabelCount ==> r.Ok? && |r.value| == groupsCount
    ensures 0 < groupsCount <= LabelCount ==>
              forall j :: 0 <= j < |r.value| ==> |r.value[j]| <= GroupSize(|names|, groupsCount)
  {
    if groupsCount == 0 then Err(ZeroDivision)
    else if groupsCount < 0 then Ok([])
    else if groupsCount > LabelCount then Err(CharRange)
    else Ok(Fill(names, groupsCount, GroupSize(|names|, groupsCount)))
  }

  /** The groups partition the participants: concatenated they give back the
      input list, and a later group gets members only once all earlier ones
      are full. */
  lemma SplitPartitions(names: seq<Name>, groupsCount: int)
    requires 0 < groupsCount <= LabelCount
    ensures Flatten(Split(names, groupsCount).value) == names
    ensures var gs := Split(names, groupsCount).value;
            forall i, j :: 0 <= i < j < |gs| && |gs[j]| > 0 ==> |gs[i]| == GroupSize(|names|, groupsCount)
  {
    FillKeepsOrder(names, groupsCount, GroupSize(|names|, groupsCount));
    FillFrontLoaded(names, groupsCount, GroupSize(|names|, groupsCount));
  }

  /** Whatever the count, the drawn groups hold only participants. */
  lemma SplitMembers(names: seq<Name>, groupsCount: int)
    requires Split(names, groupsCount).Ok?
    ensures forall x :: x in Flatten(Split(names, groupsCount).value) ==> x in names
  {
    if groupsCount > 0 {
      SplitPartitions(names, groupsCount);
    }
  }

  // ---------------------------------------------------------------------------
  // Group stage

  /** One group's round-robin: pairs (i, j), i < j, once each in positional
      order, with the shared 3/1/0 rule. */
  function GroupTable(size: nat, outcomes: seq<Outcome>): (t: seq<Stats>)
    requires |outcomes| == Matches(size)
    ensures |t| == size
    ensures forall p :: 0 <= p < size ==> t[p].games == size - 1
    ensures AllBalanced(t)
  {
    PairsLength(0, size, 1);
    var t := PlayAll(FreshTable(size), Pairs(0, size, 1), outcomes);
    forall p | 0 <= p < size
      ensures t[p].games == size - 1
    {
      EveryoneInvolved(size, 1, p);
    }
    t
  }

  // ---------------------------------------------------------------------------
  // Qualification: sorted(..., key=points, reverse=True)[:2]

  /** Every entry of a ranking is a position of the points list. */
  predicate Within(r: seq<nat>, pts: seq<nat>) {
    forall i :: 0 <= i < |r| ==> r[i] < |pts|
  }

  /** Position a comes before position b in the sorted list: more points, or
      as many and earlier in the table, since Python's sort is stable. */
  predicate Precedes(pts: seq<nat>, a: nat, b: nat)
    requires a < |pts| && b < |pts|
  {
    pts[a] > pts[b] || (pts[a] == pts[b] && a < b)
  }

  /** Positions by descending points, ties in table order. As Precedes is
      strict, no position is ranked twice. */
  predicate Ranked(r: seq<nat>, pts: seq<nat>) {
    Within(r, pts)
    && forall i, j {:trigger Precedes(pts, r[i], r[j])} :: 0 <= i < j < |r| ==> Precedes(pts, r[i], r[j])
  }

  /** Where a new position with points pts[x] goes: after every entry with at
      least as many points, before the first with fewer. */
  function Place(r: seq<nat>, x: nat, pts: seq<nat>): (p: nat)
    requires x < |pts| && Within(r, pts)
    ensures p <= |r|
    ensures forall i :: 0 <= i < p ==> pts[r[i]] >= pts[x]
    ensures p < |r| ==> pts[r[p]] < pts[x]
  {
    if |r| == 0 then 0
    else if pts[r[0]] < pts[x] then 0
    else 1 + Place(r[1..], x, pts)
  }

  /** One step of a stable insertion sort by descending points. */
  function Insert(r: seq<nat>, x: nat, pts: seq<nat>): (s: seq<nat>)
    requires x < |pts| && Within(r, pts)
    ensures |s| == |r| + 1
    ensures forall i :: 0 <= i < Place(r, x, pts) ==> s[i] == r[i]
    ensures s[Place(r, x, pts)] == x
    ensures forall i :: Place(r, x, pts) < i < |s| ==> s[i] == r[i - 1]
  {
    var p := Place(r, x, pts);
    r[..p] + [x] + r[p..]
  }

  /** An insertion step loses and duplicates nothing: the new list holds the
      old entries and the new position, each as often as before. */
  lemma InsertPermutes(r: seq<nat>, x: nat, pts: seq<nat>)
    requires x < |pts| && Within(r, pts)
    ensures multiset(Insert(r, x, pts)) == multiset(r) + multiset{x}
    ensures Within(Insert(r, x, pts), pts)
  {
    var p := Place(r, x, pts);
    assert r == r[..p] + r[p..];
    assert Insert(r, x, pts) == r[..p] + [x] + r[p..];
  }

  /** Inserting a position later than every ranked one keeps a ranking. */
  lemma InsertRanked(r: seq<nat>, x: nat, pts: seq<nat>)
    requires x < |pts| && Ranked(r, pts)
    requires forall i :: 0 <= i < |r| ==> r[i] < x
    ensures Ranked(Insert(r, x, pts), pts)
  {
    var p := Place(r, x, pts);
    var s := Insert(r, x, pts);
    assert Within(s, pts) by {
      forall i | 0 <= i < |s|
        ensures s[i] < |pts|
      {
        if i > p {
          assert s[i] == r[i - 1];
        }
      }
    }
    forall i, j | 0 <= i < j < |s|
      ensures Precedes(pts, s[i], s[j])
    {
      if j < p {
        assert Precedes(pts, r[i], r[j]);
      } else if j == p {
        assert s[i] == r[i] && s[j] == x;
      } else if i < p {
        assert s[i] == r[i] && s[j] == r[j - 1];
        assert Precedes(pts, r[i], r[j - 1]);
      } else if i == p {
        assert s[i] == x && s[j] == r[j - 1];
        if j - 1 > p {
          assert Precedes(pts, r[p], r[j - 1]);
        }
      } else {
        assert s[i] == r[i - 1] && s[j] == r[j - 1];
        assert Precedes(pts, r[i - 1], r[j - 1]);
      }
    }
  }

  /** The positions 0 .. n - 1 ranked by a stable insertion sort. */
  function Rank(n: nat, pts: seq<nat>): (r: seq<nat>)
    requires n <= |pts|
    ensures |r| == n
    ensures forall i :: 0 <= i < |r| ==> r[i] < n
    decreases n
  {
    if n == 0 then []
    else Insert(Rank(n - 1, pts), n - 1, pts)
  }

  /** The insertion sort produces a ranking. */
  lemma {:induction false} RankOrdered(n: nat, pts: seq<nat>)
    requires n <= |pts|
    ensures Ranked(Rank(n, pts), pts)
  {
    if n > 0 {
      RankOrdered(n - 1, pts);
      RankStep(n, pts);
    }
  }

  /** One insertion keeps a ranking: the new position is later than every
      position already ranked. */
  lemma RankStep(n: nat, pts: seq<nat>)
    requires 0 < n <= |pts| && Ranked(Rank(n - 1, pts), pts)
    ensures Ranked(Rank(n, pts), pts)
  {
    InsertRanked(Rank(n - 1, pts), n - 1, pts);
  }

  /** Every position has a place in the ranking, so with no repeats it is a
      permutation of 0 .. n - 1. */
  lemma {:induction false} RankCovers(n: nat, pts: seq<nat>, q: nat) returns (i: nat)
    requires n <= |pts| && q < n
    ensures i < n && Rank(n, pts)[i] == q
  {
    var prev := Rank(n - 1, pts);
    var p := Place(prev, n - 1, pts);
    var s := Insert(prev, n - 1, pts);
    assert Rank(n, pts) == s;
    if q == n - 1 {
      i := p;
      assert s[i] == q;
    } else {
      var k := RankCovers(n - 1, pts, q);
      if k < p {
        i := k;
        assert s[i] == prev[k];
      } else {
        i := k + 1;
        assert s[i] == prev[k];
      }
    }
  }

  /** The top min(2, size) positions of a group table. */
  function Qualifiers(t: seq<Stats>): (q: seq<nat>)
    ensures |q| == Min(2, |t|)
    ensures forall i :: 0 <= i < |q| ==> q[i] < |t|
  {
    var r := Rank(|t|, PointsColumn(t));
    r[..Min(2, |t|)]
  }

  /** The entry ranked at place a has the most points among those ranked at
      a or later, and no earlier one of them has as many. */
  lemma RankedAbove(n: nat, pts: seq<nat>, a: nat, q: nat)
    requires n <= |pts| && a < n && q < n
    requires forall b :: 0 <= b < a ==> Rank(n, pts)[b] != q
    ensures pts[q] <= pts[Rank(n, pts)[a]]
    ensures q < Rank(n, pts)[a] ==> pts[q] < pts[Rank(n, pts)[a]]
  {
    RankOrdered(n, pts);
    var i := RankCovers(n, pts, q);
    if i != a {
      assert a < i && Precedes(pts, Rank(n, pts)[a], Rank(n, pts)[i]);
    }
  }

  /** The first qualifier is the earliest participant with the most points. */
  lemma FirstQualifier(t: seq<Stats>)
    requires |t| >= 1
    ensures forall p :: 0 <= p < |t| ==> t[p].points <= t[Qualifiers(t)[0]].points
    ensures forall p :: 0 <= p < Qualifiers(t)[0] ==> t[p].points < t[Qualifiers(t)[0]].points
  {
    var pts := PointsColumn(t);
    forall p | 0 <= p < |t|
      ensures pts[p] <= pts[Rank(|t|, pts)[0]]
      ensures p < Rank(|t|, pts)[0] ==> pts[p] < pts[Rank(|t|, pts)[0]]
    {
      RankedAbove(|t|, pts, 0, p);
    }
  }

  /** Place 1 of the ranking holds someone other than place 0, with the
      most points among the others, and earliest among those. */
  lemma RankSecond(n: nat, pts: seq<nat>)
    requires 2 <= n <= |pts|
    ensures Rank(n, pts)[0] != Rank(n, pts)[1]
    ensures forall p :: 0 <= p < n && p != Rank(n, pts)[0] ==>
              pts[p] <= pts[Rank(n, pts)[1]] && (p < Rank(n, pts)[1] ==> pts[p] < pts[Rank(n, pts)[1]])
  {
    RankOrdered(n, pts);
    assert Precedes(pts, Rank(n, pts)[0], Rank(n, pts)[1]);
    forall p | 0 <= p < n && p != Rank(n, pts)[0]
      ensures pts[p] <= pts[Rank(n, pts)[1]] && (p < Rank(n, pts)[1] ==> pts[p] < pts[Rank(n, pts)[1]])
    {
      RankedAbove(n, pts, 1, p);
    }
  }

  /** The second qualifier is someone else: the earliest of the others with
      the most points. */
  lemma SecondQualifier(t: seq<Stats>)
    requires |t| >= 2
    ensures Qualifiers(t)[0] != Qualifiers(t)[1]
    ensures forall p :: 0 <= p < |t| && p != Qualifiers(t)[0] ==> t[p].points <= t[Qualifiers(t)[1]].points
    ensures forall p :: 0 <= p < Qualifiers(t)[1] && p != Qualifiers(t)[0] ==>
              t[p].points < t[Qualifiers(t)[1]].points
  {
    RankSecond(|t|, PointsColumn(t));
  }

  // ---------------------------------------------------------------------------
  // find_strategy and the playoffs

  /** find_strategy: the first participant with that name, or None. */
  function FindStrategy(names: seq<Name>, name: Name): (r: Option<nat>)
    ensures r.Some? ==> r.value < |names| && names[r.value] == name
                        && forall j :: 0 <= j < r.value ==> names[j] != name
    ensures r.None? <==> name !in names
  {
    if |names| == 0 then None
    else if names[0] == name then Some(0)
    else match FindStrategy(names[1..], name)
      case None => None
      case Some(i) => Some(i + 1)
  }

  /** One playoff match as logged: the two sides and the one who moves on. */
  datatype PlayoffMatch = PlayoffMatch(first: Name, second: Name, winner: Name)

  /** A playoff round's outcome: who moves on and the lines it adds. */
  datatype Stage = Stage(next: seq<Name>, matches: seq<PlayoffMatch>)

  /** The winner of a playoff match: the second side only on a strict win,
      the first side otherwise (a draw goes to the first-listed side). */
  function PlayoffWinner(s1: Name, s2: Name, o: Outcome): (w: Name)
    ensures w == s1 || w == s2
    ensures w == s2 && s1 != s2 ==> o == SecondWins
    ensures o == SecondWins ==> w == s2
    ensures o == FirstWins ==> w == s1
    ensures o == Draw ==> w == s1
  {
    if o == SecondWins then s2 else s1
  }

  /** The pairs (0, 1), (2, 3), … of an even list of qualifiers, one outcome
      each. The winners are drawn from the qualifiers, one per pair. */
  function Pairing(q: seq<Name>, outcomes: seq<Outcome>): (r: Stage)
    requires |q| % 2 == 0 && |q| <= 2 * |outcomes|
    ensures |r.next| == |r.matches| == |q| / 2
    ensures multiset(r.next) <= multiset(q)
    ensures forall m :: 0 <= m < |r.next| ==> r.next[m] == PlayoffWinner(q[2 * m], q[2 * m + 1], outcomes[m])
    ensures forall m :: 0 <= m < |r.matches| ==> r.matches[m] == PlayoffMatch(q[2 * m], q[2 * m + 1], r.next[m])
  {
    var k := |q| / 2;
    var next := seq(k, m requires 0 <= m < k => PlayoffWinner(q[2 * m], q[2 * m + 1], outcomes[m]));
    PairwiseDrawn(q, next);
    assert q[..|q|] == q;
    Stage(next, seq(k, m requires 0 <= m < k => PlayoffMatch(q[2 * m], q[2 * m + 1], next[m])))
  }

  /** Every name in the first `upto` places of q names a participant. */
  predicate Known(names: seq<Name>, q: seq<Name>, upto: nat) {
    forall i :: 0 <= i < |q| && i < upto ==> FindStrategy(names, q[i]).Some?
  }

  /** One pass of the playoff loop. A missing name in a pair dereferences
      None; with an odd count, reading the partner of the last qualifier
      raises IndexError; the first of these in pair order ends the run. */
  function PlayoffRound(names: seq<Name>, q: seq<Name>, outcomes: seq<Outcome>): (r: Result<Stage>)
    requires |q| <= 2 * |outcomes|
    ensures r == Err(NoneAttribute) <==> !Known(names, q, |q| / 2 * 2)
    ensures r == Err(IndexOutOfRange) <==> Known(names, q, |q| / 2 * 2) && |q| % 2 == 1
    ensures r.Ok? <==> Known(names, q, |q|) && |q| % 2 == 0
    ensures r.Ok? ==> r.value == Pairing(q, outcomes) && multiset(r.value.next) <= multiset(q)
  {
    if !Known(names, q, |q| / 2 * 2) then Err(NoneAttribute)
    else if |q| % 2 == 1 then Err(IndexOutOfRange)
    else Ok(Pairing(q, outcomes))
  }

  /** A power of two: the counts the playoff loop halves down to one without
      ever meeting an odd round. */
  predicate PowerOfTwo(n: nat)
    decreases n
  {
    n == 1 || (n > 1 && n % 2 == 0 && PowerOfTwo(n / 2))
  }

  /** The champion and the playoff lines. */
  datatype Final = Final(champion: Name, matches: seq<PlayoffMatch>)

  /** The playoff loop, until one qualifier remains, then `qualified[0]`. */
  function Playoffs(names: seq<Name>, q: seq<Name>, outcomes: seq<Outcome>): (r: Result<Final>)
    requires |q| <= |outcomes| + 1
    ensures Known(names, q, |q|) ==> (r.Ok? <==> PowerOfTwo(|q|))
    ensures Known(names, q, |q|) && !PowerOfTwo(|q|) ==> r == Err(IndexOutOfRange)
    ensures r.Ok? ==> r.value.champion in multiset(q) && |r.value.matches| == |q| - 1
    decreases |q|
  {
    if |q| == 0 then Err(IndexOutOfRange)
    else if |q| == 1 then Ok(Final(q[0], []))
    else match PlayoffRound(names, q, outcomes)
      case Err(f) => Err(f)
      case Ok(stage) =>
        var k := |q| / 2;
        KnownShrinks(names, q, stage.next);
        match Playoffs(names, stage.next, outcomes[k..])
        case Err(f) => Err(f)
        case Ok(fin) => Ok(Final(fin.champion, stage.matches + fin.matches))
  }

  /** The first playoff round pairs the qualified list as it stands:
      qualifiers 2m and 2m + 1 meet in the m-th playoff line. */
  lemma PlayoffsFirstRound(names: seq<Name>, q: seq<Name>, outcomes: seq<Outcome>, m: nat)
    requires |q| <= |outcomes| + 1
    requires Playoffs(names, q, outcomes).Ok? && m < |q| / 2
    ensures Playoffs(names, q, outcomes).value.matches[m].first == q[2 * m]
    ensures Playoffs(names, q, outcomes).value.matches[m].second == q[2 * m + 1]
  {
    var stage := PlayoffRound(names, q, outcomes).value;
    var fin := Playoffs(names, stage.next, outcomes[|q| / 2..]).value;
    assert Playoffs(names, q, outcomes).value.matches == stage.matches + fin.matches;
    assert stage.matches[m] == PlayoffMatch(q[2 * m], q[2 * m + 1], stage.next[m]);
  }

  /** The first |q| / 2 playoff lines pair the qualified list q in order:
      line m is q[2m] against q[2m + 1]. */
  predicate FirstRoundInOrder(playoffs: seq<PlayoffMatch>, q: seq<Name>)
  {
    |q| / 2 <= |playoffs|
    && forall m :: 0 <= m < |q| / 2 ==>
         playoffs[m].first == q[2 * m] && playoffs[m].second == q[2 * m + 1]
  }

  /** Every line of the first playoff round at once. */
  lemma FirstRoundPairs(names: seq<Name>, q: seq<Name>, outcomes: seq<Outcome>)
    requires |q| <= |outcomes| + 1 && Playoffs(names, q, outcomes).Ok?
    ensures FirstRoundInOrder(Playoffs(names, q, outcomes).value.matches, q)
  {
    forall m | 0 <= m < |q| / 2
      ensures Playoffs(names, q, outcomes).value.matches[m].first == q[2 * m]
      ensures Playoffs(names, q, outcomes).value.matches[m].second == q[2 * m + 1]
    {
      PlayoffsFirstRound(names, q, outcomes, m);
    }
  }

  /** Names drawn from known names are known. */
  lemma KnownShrinks(names: seq<Name>, q: seq<Name>, next: seq<Name>)
    requires Known(names, q, |q|) && multiset(next) <= multiset(q)
    ensures Known(names, next, |next|)
  {
    forall i | 0 <= i < |next|
      ensures FindStrategy(names, next[i]).Some?
    {
      assert next[i] in multiset(q);
      var j :| 0 <= j < |q| && q[j] == next[i];
    }
  }

  // ---------------------------------------------------------------------------
  // ChampionshipTournament.run

  /** One outcome stream per group, as long as the group's round-robin. */
  predicate Scheduled(groups: seq<seq<Name>>, groupOutcomes: seq<seq<Outcome>>) {
    |groupOutcomes| == |groups|
    && forall j :: 0 <= j < |groups| ==> |groupOutcomes[j]| == Matches(|groups[j]|)
  }

  /** The tables of all groups, in group order. */
  function GroupTables(groups: seq<seq<Name>>, groupOutcomes: seq<seq<Outcome>>): (ts: seq<seq<Stats>>)
    requires Scheduled(groups, groupOutcomes)
    ensures |ts| == |groups|
    ensures forall j :: 0 <= j < |ts| ==> ts[j] == GroupTable(|groups[j]|, groupOutcomes[j])
  {
    seq(|groups|, j requires 0 <= j < |groups| => GroupTable(|groups[j]|, groupOutcomes[j]))
  }

  /** The group stage as a whole: every group's table has a row per member,
      every member has played everyone else in the group once, and every row
      is balanced. */
  lemma GroupStage(groups: seq<seq<Name>>, groupOutcomes: seq<seq<Outcome>>, j: nat)
    requires Scheduled(groups, groupOutcomes) && j < |groups|
    ensures |GroupTables(groups, groupOutcomes)[j]| == |groups[j]|
    ensures AllBalanced(GroupTables(groups, groupOutcomes)[j])
    ensures forall p :: 0 <= p < |groups[j]| ==> GroupTables(groups, groupOutcomes)[j][p].games == |groups[j]| - 1
  {
    assert GroupTables(groups, groupOutcomes)[j] == GroupTable(|groups[j]|, groupOutcomes[j]);
  }

  /** The number of qualifiers: two from each group, or all of a smaller group. */
  function QualifierCount(groups: seq<seq<Name>>): (c: nat)
    ensures c <= 2 * |groups|
  {
    if |groups| == 0 then 0 else Min(2, |groups[0]|) + QualifierCount(groups[1..])
  }

  /** tops[j] picks min(2, size) members of group j by position. */
  predicate Picks(groups: seq<seq<Name>>, tops: seq<seq<nat>>) {
    |tops| == |groups|
    && forall j :: 0 <= j < |groups| ==>
         |tops[j]| == Min(2, |groups[j]|) && forall i :: 0 <= i < |tops[j]| ==> tops[j][i] < |groups[j]|
  }

  /** Dropping the first group keeps the picks of the others. */
  lemma PicksTail(groups: seq<seq<Name>>, tops: seq<seq<nat>>)
    requires Picks(groups, tops) && |groups| > 0
    ensures Picks(groups[1..], tops[1..])
  {
    forall j | 0 <= j < |groups| - 1
      ensures |tops[1..][j]| == Min(2, |groups[1..][j]|)
      ensures forall i :: 0 <= i < |tops[1..][j]| ==> tops[1..][j][i] < |groups[1..][j]|
    {
      assert tops[1..][j] == tops[j + 1] && groups[1..][j] == groups[j + 1];
    }
  }

  /** The picked members of every group, group after group. */
  function Picked(groups: seq<seq<Name>>, tops: seq<seq<nat>>): (q: seq<Name>)
    requires Picks(groups, tops)
    ensures |q| == QualifierCount(groups)
  {
    if |groups| == 0 then []
    else
      var top := seq(|tops[0]|, i requires 0 <= i < |tops[0]| => groups[0][tops[0][i]]);
      PicksTail(groups, tops);
      top + Picked(groups[1..], tops[1..])
  }

  /** Every pick is a member of some group. */
  lemma {:induction false} PickedFromGroups(groups: seq<seq<Name>>, tops: seq<seq<nat>>)
    requires Picks(groups, tops)
    ensures forall i :: 0 <= i < |Picked(groups, tops)| ==> Picked(groups, tops)[i] in Flatten(groups)
  {
    if |groups| > 0 {
      var top := seq(|tops[0]|, i requires 0 <= i < |tops[0]| => groups[0][tops[0][i]]);
      PicksTail(groups, tops);
      PickedFromGroups(groups[1..], tops[1..]);
      assert Picked(groups, tops) == top + Picked(groups[1..], tops[1..]);
      assert forall i :: 0 <= i < |top| ==> top[i] in groups[0];
    }
  }

  /** The number of qualifiers the first j groups send. */
  function Offset(groups: seq<seq<Name>>, j: nat): (c: nat)
    requires j <= |groups|
    ensures c <= QualifierCount(groups)
    ensures j < |groups| ==> c + Min(2, |groups[j]|) <= QualifierCount(groups)
  {
    if j == 0 then 0 else Min(2, |groups[0]|) + Offset(groups[1..], j - 1)
  }

  /** The offset of group j is the qualifier count of the groups before it. */
  lemma {:induction false} OffsetCounts(groups: seq<seq<Name>>, j: nat)
    requires j <= |groups|
    ensures Offset(groups, j) == QualifierCount(groups[..j])
  {
    if j > 0 {
      OffsetCounts(groups[1..], j - 1);
      assert groups[..j][1..] == groups[1..][..j - 1];
    }
  }

  /** Group j's picks sit right after those of the groups before it, in the
      order of tops[j]. */
  lemma {:induction false} PickedAt(groups: seq<seq<Name>>, tops: seq<seq<nat>>, j: nat, i: nat)
    requires Picks(groups, tops) && j < |groups| && i < Min(2, |groups[j]|)
    ensures Picked(groups, tops)[Offset(groups, j) + i] == groups[j][tops[j][i]]
  {
    var top := seq(|tops[0]|, k requires 0 <= k < |tops[0]| => groups[0][tops[0][k]]);
    var rest := Picked(groups[1..], tops[1..]);
    assert Picked(groups, tops) == top + rest;
    if j == 0 {
      assert (top + rest)[i] == top[i] == groups[0][tops[0][i]];
    } else {
      var off := Offset(groups[1..], j - 1);
      PicksTail(groups, tops);
      PickedAt(groups[1..], tops[1..], j - 1, i);
      assert groups[1..][j - 1] == groups[j] && tops[1..][j - 1] == tops[j];
      assert rest[off + i] == groups[j][tops[j][i]];
      assert Offset(groups, j) == |top| + off;
      assert (top + rest)[|top| + off + i] == rest[off + i];
    }
  }

  /** The qualifier positions of every group table. */
  function Tops(tables: seq<seq<Stats>>): seq<seq<nat>> {
    seq(|tables|, j requires 0 <= j < |tables| => Qualifiers(tables[j]))
  }

  /** The qualified list: each group's top names, best first, group after
      group. */
  function Qualified(groups: seq<seq<Name>>, tables: seq<seq<Stats>>): (q: seq<Name>)
    requires |tables| == |groups| && forall j :: 0 <= j < |groups| ==> |tables[j]| == |groups[j]|
    ensures |q| == QualifierCount(groups)
    ensures forall i :: 0 <= i < |q| ==> q[i] in Flatten(groups)
  {
    assert Picks(groups, Tops(tables));
    PickedFromGroups(groups, Tops(tables));
    Picked(groups, Tops(tables))
  }

  /** Where group j's qualifiers sit in the qualified list: right after those
      of the groups before it, in the order of the group's ranking. */
  lemma QualifiedAt(groups: seq<seq<Name>>, tables: seq<seq<Stats>>, j: nat, i: nat)
    requires |tables| == |groups| && forall g :: 0 <= g < |groups| ==> |tables[g]| == |groups[g]|
    requires j < |groups| && i < Min(2, |groups[j]|)
    ensures QualifierCount(groups[..j]) == Offset(groups, j)
    ensures Qualified(groups, tables)[QualifierCount(groups[..j]) + i] == groups[j][Qualifiers(tables[j])[i]]
  {
    OffsetCounts(groups, j);
    assert Qualified(groups, tables)[Offset(groups, j) + i] == groups[j][Qualifiers(tables[j])[i]] by {
      PickedAt(groups, Tops(tables), j, i);
    }
  }

  /** Every qualifier is a participant, so find_strategy finds them all. */
  lemma QualifiedKnown(names: seq<Name>, groupsCount: int, tables: seq<seq<Stats>>)
    requires Split(names, groupsCount).Ok?
    requires var groups := Split(names, groupsCount).value;
             |tables| == |groups| && forall j :: 0 <= j < |groups| ==> |tables[j]| == |groups[j]|
    ensures var q := Qualified(Split(names, groupsCount).value, tables);
            Known(names, q, |q|)
  {
    if 0 < groupsCount {
      SplitPartitions(names, groupsCount);
    }
  }

  /** The playoffs on the qualified list: every qualifier has a strategy,
      and a finished playoff crowns one of them after pairing the list in
      order. */
  lemma QualifiedPlayoffs(names: seq<Name>, groups: seq<seq<Name>>, tables: seq<seq<Stats>>,
                          outcomes: seq<Outcome>)
    requires |tables| == |groups| && forall j :: 0 <= j < |groups| ==> |tables[j]| == |groups[j]|
    requires QualifierCount(groups) <= |outcomes| + 1
    requires forall x :: x in Flatten(groups) ==> x in names
    ensures Known(names, Qualified(groups, tables), QualifierCount(groups))
    ensures Playoffs(names, Qualified(groups, tables), outcomes).Ok? ==>
              Playoffs(names, Qualified(groups, tables), outcomes).value.champion in names
              && Playoffs(names, Qualified(groups, tables), outcomes).value.champion in Qualified(groups, tables)
              && FirstRoundInOrder(Playoffs(names, Qualified(groups, tables), outcomes).value.matches,
                                   Qualified(groups, tables))
  {
    var q := Qualified(groups, tables);
    forall i | 0 <= i < |q|
      ensures FindStrategy(names, q[i]).Some?
    {
      assert q[i] in Flatten(groups);
    }
    if Playoffs(names, q, outcomes).Ok? {
      var champion := Playoffs(names, q, outcomes).value.champion;
      var i :| 0 <= i < |q| && q[i] == champion;
      assert q[i] in Flatten(groups);
      FirstRoundPairs(names, q, outcomes);
    }
  }

  /** What ChampionshipTournament.run returns: the groups with their tables,
      the playoff lines and the champion. */
  datatype Report = Report(groups: seq<seq<Name>>, tables: seq<seq<Stats>>, playoffs: seq<PlayoffMatch>, champion: Name)

  /** The run once the groups are drawn: the group tables, the qualified
      list, and the playoffs on it. */
  function Knockout(names: seq<Name>, groups: seq<seq<Name>>, groupOutcomes: seq<seq<Outcome>>,
                    playoffOutcomes: seq<Outcome>): (r: Result<Report>)
    requires Scheduled(groups, groupOutcomes)
    requires QualifierCount(groups) <= |playoffOutcomes| + 1
    requires forall x :: x in Flatten(groups) ==> x in names
    ensures r.Ok? <==> PowerOfTwo(QualifierCount(groups))
    ensures r.Err? ==> r == Err(IndexOutOfRange)
    ensures r.Ok? ==> r.value.groups == groups
                      && r.value.tables == GroupTables(groups, groupOutcomes)
                      && |r.value.playoffs| == QualifierCount(groups) - 1
                      && r.value.champion in names
    ensures r.Ok? ==> r.value.champion in Qualified(groups, r.value.tables)
    ensures r.Ok? ==> FirstRoundInOrder(r.value.playoffs, Qualified(groups, r.value.tables))
  {
    var tables := GroupTables(groups, groupOutcomes);
    var q := Qualified(groups, tables);
    QualifiedPlayoffs(names, groups, tables, playoffOutcomes);
    match Playoffs(names, q, playoffOutcomes)
    case Err(f) => Err(f)
    case Ok(fin) =>
      Ok(Report(groups, tables, fin.matches, fin.champion))
  }

  /** ChampionshipTournament(names, groupsCount).run(). */
  function Run(names: seq<Name>, groupsCount: int, groupOutcomes: seq<seq<Outcome>>,
               playoffOutcomes: seq<Outcome>): (r: Result<Report>)
    requires Distinct(names)
    requires Split(names, groupsCount).Ok? ==> Scheduled(Split(names, groupsCount).value, groupOutcomes)
    requires 0 < groupsCount <= LabelCount ==> 2 * groupsCount <= |playoffOutcomes| + 1
    ensures groupsCount <= 0 || LabelCount < groupsCount ==> r.Err?
    ensures r.Err? ==> r.fault == (if groupsCount == 0 then ZeroDivision
                                  else if groupsCount > LabelCount then CharRange
                                  else IndexOutOfRange)
    ensures 0 < groupsCount <= LabelCount ==>
              (r.Ok? <==> PowerOfTwo(QualifierCount(Split(names, groupsCount).value)))
    ensures r.Ok? ==> Split(names, groupsCount).Ok?
    ensures r.Ok? ==> r.value.groups == Split(names, groupsCount).value
                      && r.value.tables == GroupTables(r.value.groups, groupOutcomes)
                      && |r.value.playoffs| == QualifierCount(r.value.groups) - 1
                      && r.value.champion in names
    ensures r.Ok? ==> r.value.champion in Qualified(r.value.groups, r.value.tables)
    ensures r.Ok? ==> FirstRoundInOrder(r.value.playoffs, Qualified(r.value.groups, r.value.tables))
  {
    match Split(names, groupsCount)
    case Err(f) => Err(f)
    case Ok(groups) =>
      SplitMembers(names, groupsCount);
      Knockout(names, groups, groupOutcomes, playoffOutcomes)
  }

  /** Three participants in two groups: groups of sizes 2 and 1 send three
      qualifiers to the playoffs, and the second playoff pair reads past the
      end of the list. */
  lemma ThreeInTwoGroups(groupOutcomes: seq<seq<Outcome>>, playoffOutcomes: seq<Outcome>)
    requires Scheduled(Split(["x", "y", "z"], 2).value, groupOutcomes)
    requires |playoffOutcomes| >= 3
    ensures Split(["x", "y", "z"], 2) == Ok([["x", "y"], ["z"]])
    ensures Run(["x", "y", "z"], 2, groupOutcomes, playoffOutcomes) == Err(IndexOutOfRange)
  {
    var names: seq<Name> := ["x", "y", "z"];
    var xy: seq<Name> := ["x", "y"];
    var z: seq<Name> := ["z"];
    assert GroupSize(3, 2) == 2;
    assert names[..2] == xy && names[2..] == z;
    assert z[..1] == z && z[1..] == [];
    assert Fill(z, 1, 2) == [z];
    assert Fill(names, 2, 2) == [xy] + [z] == [xy, z];
    assert QualifierCount([xy, z]) == 3 by {
      assert [xy, z][1..] == [z];
      assert [z][1..] == [];
    }
    assert !PowerOfTwo(3);
  }

  /** Four participants in two groups: four qualifiers, two semi-finals and
      a final, three playoff matches in all. */
  lemma FourInTwoGroups(groupOutcomes: seq<seq<Outcome>>, playoffOutcomes: seq<Outcome>)
    requires Scheduled(Split(["w", "x", "y", "z"], 2).value, groupOutcomes)
    requires |playoffOutcomes| >= 3
    ensures Run(["w", "x", "y", "z"], 2, groupOutcomes, playoffOutcomes).Ok?
    ensures |Run(["w", "x", "y", "z"], 2, groupOutcomes, playoffOutcomes).value.playoffs| == 3
  {
    var names: seq<Name> := ["w", "x", "y", "z"];
    var wx: seq<Name> := ["w", "x"];
    var yz: seq<Name> := ["y", "z"];
    assert GroupSize(4, 2) == 2;
    assert names[..2] == wx && names[2..] == yz;
    assert yz[..2] == yz && yz[2..] == [];
    assert Fill(yz, 1, 2) == [yz];
    assert Fill(names, 2, 2) == [wx] + [yz] == [wx, yz];
    assert QualifierCount([wx, yz]) == 4 by {
      assert [wx, yz][1..] == [yz];
      assert [yz][1..] == [];
    }
    assert PowerOfTwo(4) by {
      assert PowerOfTwo(2);
    }
  }
}

=== FILE: common.dfy ===
/**
  Vocabulary shared by the match engine, the strategies and the tournaments:
  optional values, the Python exceptions the modelled code can raise, and the
  verdict of one match.
 */
module Common {

  /** Python's `None` or a value. */
  datatype Option<+T> = None | Some(value: T)

  /** The exceptions the modelled code raises on its unguarded paths. */
  datatype Fault =
    | EmptyRange      // ValueError: random.randint(0, -1) on an empty list
    | InputExhausted  // EOFError: input() asked for an answer after the script ran out
    | NoneAttribute   // AttributeError: an attribute read on None
    | IndexOutOfRange // IndexError: a list index past the end, or random.choice([])
    | ZeroDivision    // ZeroDivisionError: integer division by zero
    | CharRange       // ValueError: chr() of a code point above 0x10FFFF

  /** A computed value, or the exception that ended the computation. */
  datatype Result<+T> = Ok(value: T) | Err(fault: Fault)

  /** The verdict of one match between a first and a second participant:
      the first's ratio is strictly higher, the second's is, or they are equal. */
  datatype Outcome = FirstWins | SecondWins | Draw

  /** A strategy's display name. */
  type Name = string

  function Min(a: int, b: int): int {
    if a <= b then a else b
  }

  function Sum(s: seq<nat>): nat {
    if |s| == 0 then 0 else s[0] + Sum(s[1..])
  }

  /** No name occurs twice. */
  predicate Distinct(names: seq<Name>) {
    forall i, j :: 0 <= i < j < |names| ==> names[i] != names[j]
  }

  /** The number of times verdict o occurs in a stream of outcomes. */
  function Tally(outcomes: seq<Outcome>, o: Outcome): nat {
    multiset(outcomes)[o]
  }

  /** The number of draws in a stream of outcomes. */
  function Draws(outcomes: seq<Outcome>): nat {
    Tally(outcomes, Draw)
  }

  lemma DrawsAppend(a: seq<Outcome>, b: seq<Outcome>)
    ensures Draws(a + b) == Draws(a) + Draws(b)
  {
    assert multiset(a + b) == multiset(a) + multiset(b);
  }

  lemma {:induction false} DrawsAtMost(outcomes: seq<Outcome>)
    ensures Draws(outcomes) <= |outcomes|
  {
    if |outcomes| > 0 {
      DrawsAtMost(outcomes[1..]);
      assert outcomes == [outcomes[0]] + outcomes[1..];
      DrawsAppend([outcomes[0]], outcomes[1..]);
    }
  }

  /** If the m-th element of ws is one of xs[2m] and xs[2m + 1], ws is drawn
      from the first 2|ws| elements of xs: a knockout round, where each pair
      sends one side on. */
  lemma {:induction false} PairwiseDrawn<T>(xs: seq<T>, ws: seq<T>)
    requires 2 * |ws| <= |xs|
    requires forall m :: 0 <= m < |ws| ==> ws[m] == xs[2 * m] || ws[m] == xs[2 * m + 1]
    ensures multiset(ws) <= multiset(xs[..2 * |ws|])
  {
    if |ws| > 0 {
      var n := |ws| - 1;
      PairwiseDrawn(xs, ws[..n]);
      assert ws == ws[..n] + [ws[n]];
      assert xs[..2 * n + 2] == xs[..2 * n] + [xs[2 * n], xs[2 * n + 1]];
    }
  }
}

=== FILE: deathmatch.dfy ===
/**
  DeathMatchTournament.run (Tournament.py:89-123): two participants play
  match after match; a strict win adds 1 to the winner's counter and a draw
  changes nothing; play stops as soon as some counter reaches the goal. The
  outcome of the n-th match is the n-th element of a finite outcome stream;
  when the stream runs out first the report says the match never finished.
 */
module DeathMatch {
  import opened Common

  /** One line of the history: the match number and the verdict. */
  datatype Entry = Entry(matchNo: nat, result: Outcome)

  /** The returned counters, the winner's side (0 for the first participant,
      1 for the second) and the history. `finished` is false when the stream
      ran out before a counter reached the goal. */
  datatype Report = Report(finished: bool, wins1: nat, wins2: nat, winner: nat, history: seq<Entry>)

  /** After the matches in s, some counter has reached the goal. */
  predicate Reached(s: seq<Outcome>, goal: int) {
    Tally(s, FirstWins) >= goal || Tally(s, SecondWins) >= goal
  }

  /** Python's max over the two-key counter dictionary: the first key wins ties. */
  function Leader(wins1: nat, wins2: nat): (side: nat)
    ensures side == 0 <==> wins1 >= wins2
    ensures side == 1 <==> wins1 < wins2
  {
    if wins1 >= wins2 then 0 else 1
  }

  lemma TallyStep(s: seq<Outcome>, n: nat, o: Outcome)
    requires n < |s|
    ensures Tally(s[..n + 1], o) == Tally(s[..n], o) + (if s[n] == o then 1 else 0)
  {
    assert s[..n + 1] == s[..n] + [s[n]];
  }

  /** DeathMatchTournament(goal).run() on the outcome stream `outcomes`. */
  method Run(goal: int, outcomes: seq<Outcome>) returns (r: Report)
    ensures |r.history| <= |outcomes|
    ensures forall m :: 0 <= m < |r.history| ==> r.history[m] == Entry(m + 1, outcomes[m])
    ensures r.wins1 == Tally(outcomes[..|r.history|], FirstWins)
    ensures r.wins2 == Tally(outcomes[..|r.history|], SecondWins)
    ensures r.finished <==> Reached(outcomes[..|r.history|], goal)
    ensures forall m :: 0 <= m < |r.history| ==> !Reached(outcomes[..m], goal)
    ensures !r.finished ==> |r.history| == |outcomes|
    ensures r.winner == Leader(r.wins1, r.wins2)
    ensures r.finished && goal >= 1 ==>
              if r.winner == 0 then r.wins1 == goal && r.wins2 < goal
              else r.wins2 == goal && r.wins1 < goal
  {
    var wins1, wins2 := 0, 0;
    var history: seq<Entry> := [];
    var n := 0;
    while !(wins1 >= goal || wins2 >= goal) && n < |outcomes|
      invariant 0 <= n <= |outcomes| && |history| == n
      invariant forall m :: 0 <= m < n ==> history[m] == Entry(m + 1, outcomes[m])
      invariant wins1 == Tally(outcomes[..n], FirstWins)
      invariant wins2 == Tally(outcomes[..n], SecondWins)
      invariant forall m :: 0 <= m < n ==> !Reached(outcomes[..m], goal)
      invariant goal >= 1 ==> wins1 <= goal && wins2 <= goal && wins1 + wins2 < 2 * goal
    {
      TallyStep(outcomes, n, FirstWins);
      TallyStep(outcomes, n, SecondWins);
      if outcomes[n] == FirstWins {
        wins1 := wins1 + 1;
      } else if outcomes[n] == SecondWins {
        wins2 := wins2 + 1;
      }
      history := history + [Entry(n + 1, outcomes[n])];
      n := n + 1;
    }
    r := Report(wins1 >= goal || wins2 >= goal, wins1, wins2, Leader(wins1, wins2), history);
  }
}

=== FILE: elimination.dfy ===
/**
  EliminationTournament.run (Tournament.py:188-240): a knockout. With an odd
  number of players the first one gets a bye and opens the next round; the
  others are paired (0, 1), (2, 3), … and each winner moves on, in order. A
  match is decided by its outcome; on equal ratios the source draws one of
  the two orders at random, which is given here as the call's `firstOnTie`.
 */
module Elimination {
  import opened Common

  /** The verdict of one match and, for a draw, which side the random choice favours. */
  datatype Call = Call(outcome: Outcome, firstOnTie: bool)

  /** One line of the history. */
  datatype Entry = Entry(round: nat, first: Name, second: Name, winner: Name, loser: Name)

  /** The champion, the players left after each round, and the history. */
  datatype Report = Report(champion: Name, bracket: seq<seq<Name>>, history: seq<Entry>)

  /** A round's outcome: who moves on and the history lines it adds. */
  datatype Round = Round(next: seq<Name>, entries: seq<Entry>)

  /** The winner of a match between s1 and s2. */
  function Winner(s1: Name, s2: Name, c: Call): (w: Name)
    ensures w == s1 || w == s2
    ensures c.outcome == FirstWins ==> w == s1
    ensures c.outcome == SecondWins ==> w == s2
  {
    match c.outcome
    case FirstWins => s1
    case SecondWins => s2
    case Draw => if c.firstOnTie then s1 else s2
  }

  /** The history line of a match between s1 and s2. */
  function Match(round: nat, s1: Name, s2: Name, c: Call): (e: Entry)
    ensures e.round == round
    ensures e.first == s1 && e.second == s2 && e.winner == Winner(s1, s2, c)
    ensures (e.winner, e.loser) == (s1, s2) || (e.winner, e.loser) == (s2, s1)
  {
    match c.outcome
    case FirstWins => Entry(round, s1, s2, s1, s2)
    case SecondWins => Entry(round, s1, s2, s2, s1)
    case Draw => if c.firstOnTie then Entry(round, s1, s2, s1, s2) else Entry(round, s1, s2, s2, s1)
  }

  /** The inner loop: players 2m and 2m + 1 meet in the m-th match, and the
      one who moves on is the winner its history line records. Every pair
      sends one of its two players on, so the winners are drawn from the
      players. */
  function PlayPairs(round: nat, players: seq<Name>, calls: seq<Call>): (r: Round)
    requires |players| % 2 == 0 && |players| <= 2 * |calls|
    ensures |r.next| == |r.entries| == |players| / 2
    ensures multiset(r.next) <= multiset(players)
    ensures forall m :: 0 <= m < |r.next| ==> r.entries[m].winner == r.next[m]
    ensures forall m :: 0 <= m < |r.next| ==>
              r.next[m] == Winner(players[2 * m], players[2 * m + 1], calls[m])
    ensures forall m :: 0 <= m < |r.entries| ==>
              r.entries[m] == Match(round, players[2 * m], players[2 * m + 1], calls[m])
  {
    var k := |players| / 2;
    var next := seq(k, m requires 0 <= m < k => Winner(players[2 * m], players[2 * m + 1], calls[m]));
    PairwiseDrawn(players, next);
    assert players[..|players|] == players;
    Round(next, seq(k, m requires 0 <= m < k => Match(round, players[2 * m], players[2 * m + 1], calls[m])))
  }

  /** The number of matches in a round of n players. */
  function RoundMatches(n: nat): nat {
    n / 2
  }

  /** One round: the bye for an odd count, then the pairs. */
  function PlayRound(round: nat, players: seq<Name>, calls: seq<Call>): (r: Round)
    requires RoundMatches(|players|) <= |calls|
    ensures |r.next| == (|players| + 1) / 2
    ensures |r.entries| == RoundMatches(|players|)
    ensures multiset(r.next) <= multiset(players)
  {
    if |players| % 2 == 1 then
      var rest := PlayPairs(round, players[1..], calls);
      assert players == [players[0]] + players[1..];
      Round([players[0]] + rest.next, rest.entries)
    else PlayPairs(round, players, calls)
  }

  /** The bye: with an odd count, the first player opens the next round and
      the others meet in pairs (1, 2), (3, 4), …; with an even count nobody
      has a bye. */
  lemma Bye(round: nat, players: seq<Name>, calls: seq<Call>)
    requires RoundMatches(|players|) <= |calls|
    ensures |players| % 2 == 1 ==>
              && PlayRound(round, players, calls).next[0] == players[0]
              && forall m :: 0 <= m < RoundMatches(|players|) ==>
                   PlayRound(round, players, calls).next[m + 1]
                   == Winner(players[2 * m + 1], players[2 * m + 2], calls[m])
    ensures |players| % 2 == 0 ==>
              forall m :: 0 <= m < RoundMatches(|players|) ==>
                PlayRound(round, players, calls).next[m]
                == Winner(players[2 * m], players[2 * m + 1], calls[m])
  {
    if |players| % 2 == 1 {
      var rest := PlayPairs(round, players[1..], calls);
      forall m | 0 <= m < RoundMatches(|players|)
        ensures PlayRound(round, players, calls).next[m + 1]
                == Winner(players[2 * m + 1], players[2 * m + 2], calls[m])
      {
        assert rest.next[m] == Winner(players[1..][2 * m], players[1..][2 * m + 1], calls[m]);
      }
    }
  }

  /** The bye holder can be given a bye again: with 4j + 1 players (j >= 1),
      the first player skips round 1 and, opening round 2 among an odd
      number of players, skips it too. */
  lemma ConsecutiveByes(players: seq<Name>, calls: seq<Call>)
    requires |players| % 4 == 1 && |players| >= 5
    requires RoundMatches(|players|) <= |calls|
    ensures var second := PlayRound(1, players, calls).next;
            |second| % 2 == 1 && second[0] == players[0]
  {
    Bye(1, players, calls);
  }

  /** The rounds from `round` on, until one player remains. */
  function Rounds(round: nat, players: seq<Name>, calls: seq<Call>): (r: Report)
    requires |players| >= 1 && |players| <= |calls| + 1
    ensures |r.history| == |players| - 1
    ensures r.champion in multiset(players)
    ensures |players| == 1 ==> r == Report(players[0], [], [])
    ensures |players| > 1 ==> |r.bracket| > 0 && r.bracket[|r.bracket| - 1] == [r.champion]
    decreases |players|
  {
    if |players| == 1 then Report(players[0], [], [])
    else
      var n := |players|;
      var r := PlayRound(round, players, calls);
      var rest := Rounds(round + 1, r.next, calls[n / 2..]);
      Report(rest.champion, [r.next] + rest.bracket, r.entries + rest.history)
  }

  /** EliminationTournament(players).run(): IndexError on an empty field. */
  function Run(players: seq<Name>, calls: seq<Call>): (r: Result<Report>)
    requires |players| <= |calls| + 1
    ensures r.Err? <==> |players| == 0
    ensures r.Err? ==> r.fault == IndexOutOfRange
    ensures r.Ok? ==> |r.value.history| == |players| - 1 && r.value.champion in players
    ensures r.Ok? && |players| > 1 ==> |r.value.bracket| > 0 && r.value.bracket[|r.value.bracket| - 1] == [r.value.champion]
  {
    if |players| == 0 then Err(IndexOutOfRange)
    else Ok(Rounds(1, players, calls))
  }
}

=== FILE: game.dfy ===
/**
  The match engine of Game.py: one strategy plays once, and its list before
  and after the play is reduced to a GameResult. The best amount is taken over
  what the strategy still holds after the play (its remaining list and its
  selection); envelopes it popped without keeping never count.
 */
module Game {
  import opened Common
  import opened Strategy

  /** GameResult: the kept amount, the best amount, the number of envelopes
      opened, whether the kept amount is the best, and their ratio. The ratio,
      a Python float, is taken as an exact real. */
  datatype GameResult = GameResult(
    selectedAmount: nat,
    maxAmount: nat,
    openedCount: int,
    success: bool,
    ratio: real)

  /** GameResult.__init__: success compares the two amounts, and the ratio
      divides them unless the best amount is 0. */
  function MakeResult(selected: nat, best: nat, count: int): (g: GameResult)
    ensures g.selectedAmount == selected && g.maxAmount == best && g.openedCount == count
    ensures g.success <==> selected == best
    ensures best == 0 ==> g.ratio == 0.0
    ensures best > 0 ==> g.ratio * best as real == selected as real
  {
    var ratio := if best > 0 then selected as real / best as real else 0.0;
    GameResult(selected, best, count, selected == best, ratio)
  }

  /** The scan of Game.py:17-20, continued from the running maximum `acc`. */
  function LargestFrom(acc: nat, amounts: seq<nat>): (m: nat)
    ensures acc <= m
    ensures forall i :: 0 <= i < |amounts| ==> amounts[i] <= m
    ensures m == acc || m in amounts
    decreases |amounts|
  {
    if |amounts| == 0 then acc
    else LargestFrom(if amounts[0] > acc then amounts[0] else acc, amounts[1..])
  }

  /** The amount of `selected_envelope`, or 0 without one. */
  function SelectedAmount(p: Play): nat {
    match p.selected
    case Some(v) => v
    case None => 0
  }

  /** The best amount of a play: the largest of 0, every remaining amount and
      the selected amount. */
  function MaxAmount(p: Play): (m: nat)
    ensures forall i :: 0 <= i < |p.remaining| ==> p.remaining[i] <= m
    ensures SelectedAmount(p) <= m
    ensures m == 0 || m in p.remaining || p.selected == Some(m)
  {
    var scanned := LargestFrom(0, p.remaining);
    if p.selected.Some? && p.selected.value > scanned then p.selected.value else scanned
  }

  /** The ratio of an amount to a best amount at least as large lies in
      [0, 1], and is 0 exactly when one of the two is 0. */
  lemma RatioInUnitInterval(selected: nat, best: nat, count: int)
    requires selected <= best
    ensures 0.0 <= MakeResult(selected, best, count).ratio <= 1.0
    ensures MakeResult(selected, best, count).ratio == 0.0 <==> best == 0 || selected == 0
  {
    if best > 0 {
      assert MakeResult(selected, best, count).ratio == selected as real / best as real;
    }
  }

  /** Game.play after the strategy has played, given the list's length before. */
  function Score(before: nat, p: Play): (g: GameResult)
    ensures g.openedCount == before - |p.remaining|
    ensures g.selectedAmount == SelectedAmount(p)
    ensures forall i :: 0 <= i < |p.remaining| ==> p.remaining[i] <= g.maxAmount
    ensures g.selectedAmount <= g.maxAmount
    ensures g.maxAmount == 0 || g.maxAmount in p.remaining || p.selected == Some(g.maxAmount)
    ensures g.success <==> g.selectedAmount == g.maxAmount
    ensures 0.0 <= g.ratio <= 1.0
    ensures g.ratio == 0.0 <==> g.maxAmount == 0 || g.selectedAmount == 0
  {
    var selected, best := SelectedAmount(p), MaxAmount(p);
    RatioInUnitInterval(selected, best, before - |p.remaining|);
    MakeResult(selected, best, before - |p.remaining|)
  }

  /** Game(strategy).play(): the strategy plays on `envs`, and the result
      scores what it left; an exception of the strategy propagates. */
  function PlayGame(s: Strategy, envs: seq<nat>, tape: seq<nat>, answers: seq<string>): (r: Result<GameResult>)
    requires ValidTape(tape, |envs|)
    ensures r.Ok? <==> Run(s, envs, tape, answers).Ok?
    ensures r.Ok? ==> r.value == Score(|envs|, Run(s, envs, tape, answers).value)
    ensures r.Ok? ==> 0 <= r.value.openedCount <= |envs|
    ensures r.Ok? ==> r.value.maxAmount == 0 || r.value.maxAmount in multiset(envs)
  {
    match Run(s, envs, tape, answers)
    case Err(f) => Err(f)
    case Ok(p) =>
      RunShrinks(s, envs, tape, answers);
      var g := Score(|envs|, p);
      assert g.maxAmount in p.remaining ==> g.maxAmount in multiset(p.remaining);
      Ok(g)
  }

  /** The number of envelopes each rule opens, as the result reports it. */
  lemma OpenedCounts(s: Strategy, envs: seq<nat>, tape: seq<nat>, answers: seq<string>)
    requires ValidTape(tape, |envs|)
    requires PlayGame(s, envs, tape, answers).Ok?
    ensures s == Manual ==> PlayGame(s, envs, tape, answers).value.openedCount == FirstYes(answers)
    ensures s == Automatic ==> PlayGame(s, envs, tape, answers).value.openedCount == 0
    ensures s.NMax? ==> PlayGame(s, envs, tape, answers).value.openedCount == OpenLimit(s.limit, |envs|)
    ensures s.Percent? ==>
              PlayGame(s, envs, tape, answers).value.openedCount
              == OpenLimit(SampleSize(|envs|, s.percent), |envs|)
  {
  }

  /** A play that keeps nothing is a success exactly when everything left in
      the list is worth 0, in particular when nothing is left. */
  lemma NoSelection(before: nat, remaining: seq<nat>)
    ensures Score(before, Play(remaining, None)).success
            <==> forall i :: 0 <= i < |remaining| ==> remaining[i] == 0
    ensures Score(before, Play(remaining, None)).ratio == 0.0
  {
    var g := Score(before, Play(remaining, None));
    if g.success {
      forall i | 0 <= i < |remaining|
        ensures remaining[i] == 0
      {
        assert remaining[i] <= g.maxAmount;
      }
    } else {
      assert g.maxAmount in remaining;
    }
  }

  /** A rule that keeps an envelope still in its list succeeds exactly when no
      remaining envelope is worth more. */
  lemma KeptFromList(before: nat, p: Play)
    requires p.selected.Some? && p.selected.value in p.remaining
    ensures Score(before, p).success
            <==> forall i :: 0 <= i < |p.remaining| ==> p.remaining[i] <= p.selected.value
  {
    var g := Score(before, p);
    if !g.success {
      assert g.maxAmount in p.remaining;
    }
  }

  /** When no remaining envelope beats the sample maximum, the percent rule
      falls back to the sample's maximal envelope, and that is always a
      success: its amount is at least every remaining amount. */
  lemma PercentFallbackSucceeds(k: int, envs: seq<nat>, tape: seq<nat>)
    requires ValidTape(tape, |envs|) && |envs| > 0
    requires FirstAbove(OpenRandom(envs, tape, OpenLimit(k, |envs|)).remaining,
                        SampleBest(OpenRandom(envs, tape, OpenLimit(k, |envs|)).popped).amount).None?
    ensures Score(|envs|, PercentPlay(k, envs, tape).value).success
  {
    var o := OpenRandom(envs, tape, OpenLimit(k, |envs|));
    var b := SampleBest(o.popped);
    var p := PercentPlay(k, envs, tape).value;
    assert p.selected == Some(o.popped[b.at.value]);
    var g := Score(|envs|, p);
    if g.maxAmount in p.remaining {
      var i :| 0 <= i < |p.remaining| && p.remaining[i] == g.maxAmount;
      assert p.remaining[i] <= b.amount;
    }
  }

  /** With a sample of size 0 and a non-empty list, the percent rule keeps the
      first envelope of the list. */
  lemma PercentEmptySample(k: int, envs: seq<nat>, tape: seq<nat>)
    requires ValidTape(tape, |envs|) && |envs| > 0 && k <= 0
    ensures PercentPlay(k, envs, tape) == Ok(Play(envs, Some(envs[0])))
  {
    var o := OpenRandom(envs, tape, 0);
    assert SampleBest(o.popped).amount == -1;
  }

  /** The popped maximum is forgotten: N_max with N = 1 on [10, 50, 20],
      popping the 50 and keeping the 10, reports a best amount of 20. */
  lemma PoppedMaximumIsForgotten()
    ensures var p := NMaxPlay(1, [10, 50, 20], [1, 0, 0]);
            p == Play([10, 20], Some(10)) && Score(3, p).maxAmount == 20 && !Score(3, p).success
  {
    var o := OpenRandom([10, 50, 20], [1, 0, 0], 1);
    assert Pop([10, 50, 20], 1) == [10, 20];
    assert OpenRandom([10, 20], [0, 0], 0) == Opening([10, 20], []);
    assert o == Opening([10, 20], [50]);
  }

  /** With percent 0.34, a list of four envelopes gives a sample of one. */
  lemma PercentSampleOfFour()
    ensures SampleSize(4, 0.34) == 1
  {
    assert (4 as real * 0.34).Floor == 1;
  }

  /** The percent rule with a sample of one on [5, 100, 1, 2]: sampling the 5,
      it keeps the 100, which is the best. */
  lemma PercentScenario()
    ensures PercentPlay(1, [5, 100, 1, 2], [0, 0, 0, 0]) == Ok(Play([100, 1, 2], Some(100)))
    ensures Score(4, Play([100, 1, 2], Some(100))).success
  {
    var o := OpenRandom([5, 100, 1, 2], [0, 0, 0, 0], 1);
    assert Pop([5, 100, 1, 2], 0) == [100, 1, 2];
    assert OpenRandom([100, 1, 2], [0, 0, 0], 0) == Opening([100, 1, 2], []);
    assert o == Opening([100, 1, 2], [5]);
    assert SampleBest([5]).amount == 5;
    assert FirstAbove([100, 1, 2], 5) == Some(0);
  }

  /** The verdict of a match: the strictly higher ratio wins, equal ratios draw. */
  function Decide(r1: GameResult, r2: GameResult): (o: Outcome)
    ensures o == FirstWins <==> r1.ratio > r2.ratio
    ensures o == SecondWins <==> r2.ratio > r1.ratio
    ensures o == Draw <==> r1.ratio == r2.ratio
  {
    if r1.ratio > r2.ratio then FirstWins
    else if r2.ratio > r1.ratio then SecondWins
    else Draw
  }

  /** What the verdict means for the players: keeping the best of a pool
      worth something scores a ratio of 1 and is never beaten, and it draws
      exactly against another such play; keeping nothing is never a win. */
  lemma {:induction false} VerdictOnScores(b1: nat, p1: Play, b2: nat, p2: Play)
    ensures Score(b1, p1).success && Score(b1, p1).maxAmount > 0 ==>
              && Score(b1, p1).ratio == 1.0
              && Decide(Score(b1, p1), Score(b2, p2)) != SecondWins
              && (Decide(Score(b1, p1), Score(b2, p2)) == Draw
                  <==> Score(b2, p2).success && Score(b2, p2).maxAmount > 0)
    ensures Score(b1, p1).selectedAmount == 0 ==> Decide(Score(b1, p1), Score(b2, p2)) != FirstWins
  {
    var g1, g2 := Score(b1, p1), Score(b2, p2);
    if g1.success && g1.maxAmount > 0 {
      UnitRatio(g1);
      UnitRatio(g2);
    }
  }

  /** A scored result's ratio is 1 exactly when it kept a positive best amount. */
  lemma UnitRatio(g: GameResult)
    requires g == MakeResult(g.selectedAmount, g.maxAmount, g.openedCount)
    ensures g.ratio == 1.0 <==> g.success && g.maxAmount > 0
  {
    if g.maxAmount > 0 {
      assert g.ratio == g.selectedAmount as real / g.maxAmount as real;
    }
  }

  function Mirror(o: Outcome): Outcome {
    match o
    case FirstWins => SecondWins
    case SecondWins => FirstWins
    case Draw => Draw
  }

  /** Swapping the two sides swaps the verdict. */
  lemma DecideMirror(r1: GameResult, r2: GameResult)
    ensures Decide(r2, r1) == Mirror(Decide(r1, r2))
  {
  }

  /** A strategy built on an empty list, as DeathMatch builds both of its
      players: the manual rule's randint, the automatic rule's choice and the
      percent rule's fallback all fail, while N_max keeps nothing and scores
      ratio 0, so two N_max players draw every match and no counter moves. */
  lemma EmptyListPlays(s: Strategy, tape: seq<nat>, answers: seq<string>)
    requires ValidTape(tape, 0)
    ensures s.Manual? ==> PlayGame(s, [], tape, answers) == Err(EmptyRange)
    ensures s.Automatic? ==> PlayGame(s, [], tape, answers) == Err(IndexOutOfRange)
    ensures s.Percent? ==> PlayGame(s, [], tape, answers) == Err(NoneAttribute)
    ensures s.NMax? ==> && PlayGame(s, [], tape, answers).Ok?
                        && PlayGame(s, [], tape, answers).value.ratio == 0.0
                        && Decide(PlayGame(s, [], tape, answers).value, PlayGame(s, [], tape, answers).value) == Draw
  {
  }
}

=== FILE: league.dfy ===
/**
  LeagueTournament (Tournament.py:247-309): every pair (i, j) with i < j plays
  twice in a row, "home" then "away", under identical rules. Each match
  updates both participants' full record.
 */
module League {
  import opened Common
  import opened Schedule
  import opened Standings

  /** One line of the history: match number, the two positions and the verdict. */
  datatype Entry = Entry(matchNo: nat, first: nat, second: nat, result: Outcome)

  /** The final table (by position) and the history. */
  datatype Report = Report(table: seq<Stats>, history: seq<Entry>)

  /** The fixture list: the nested loops with two legs per pair. */
  function Fixtures(k: nat): (s: seq<Fixture>)
    ensures |s| == 2 * Matches(k)
  {
    PairsLength(0, k, 2);
    Pairs(0, k, 2)
  }

  /** Every unordered pair of distinct participants meets exactly twice, no
      other pairing occurs, and the list runs in positional order, so the two
      legs of a pair are adjacent; k(k-1) matches in all. */
  lemma LeagueFixtures(k: nat, a: nat, b: nat)
    ensures Times(Fixtures(k), Fixture(a, b)) == if a < b < k then 2 else 0
    ensures InOrder(Fixtures(k))
    ensures |Fixtures(k)| == 2 * Matches(k) == k * (k - 1)
  {
    PairsTimes(0, k, 2, a, b);
    PairsInOrder(0, k, 2);
    PairsLength(0, k, 2);
    MatchesClosedForm(k);
  }

  function Log(fixtures: seq<Fixture>, outcomes: seq<Outcome>): (h: seq<Entry>)
    requires |outcomes| == |fixtures|
    ensures |h| == |fixtures|
    ensures forall m :: 0 <= m < |h| ==>
              h[m] == Entry(m + 1, fixtures[m].first, fixtures[m].second, outcomes[m])
  {
    seq(|fixtures|, m requires 0 <= m < |fixtures| =>
      Entry(m + 1, fixtures[m].first, fixtures[m].second, outcomes[m]))
  }

  /** The table after all matches: each participant's full record. */
  function Table(k: nat, outcomes: seq<Outcome>): (t: seq<Stats>)
    requires |outcomes| == 2 * Matches(k)
    ensures |t| == k
    ensures forall p :: 0 <= p < k ==> t[p].games == 2 * (k - 1)
    ensures AllBalanced(t)
  {
    var t := PlayAll(FreshTable(k), Fixtures(k), outcomes);
    forall p | 0 <= p < k
      ensures t[p].games == 2 * (k - 1)
    {
      EveryoneInvolved(k, 2, p);
    }
    t
  }

  /** Over the whole league the wins and the losses each number the matches
      that did not end level, the draw column holds two per draw, and the
      points add up to 3 per strict result and 2 per draw. */
  lemma TableTotals(k: nat, outcomes: seq<Outcome>)
    requires |outcomes| == 2 * Matches(k)
    ensures Total(Table(k, outcomes), Wins) == Total(Table(k, outcomes), Losses)
            == |outcomes| - Draws(outcomes)
    ensures Total(Table(k, outcomes), DrawCount) == 2 * Draws(outcomes)
    ensures Total(Table(k, outcomes), Points) == 3 * |outcomes| - Draws(outcomes)
  {
    PlayAllTotals(FreshTable(k), Fixtures(k), outcomes);
    FreshTotal(k);
  }

  /** LeagueTournament(k strategies).run(), one outcome per scheduled match. */
  function Run(k: nat, outcomes: seq<Outcome>): (r: Report)
    requires |outcomes| == 2 * Matches(k)
    ensures r.table == Table(k, outcomes)
    ensures |r.history| == |outcomes|
    ensures forall m :: 0 <= m < |r.history| ==>
              && r.history[m].matchNo == m + 1
              && Fixture(r.history[m].first, r.history[m].second) == Fixtures(k)[m]
              && r.history[m].result == outcomes[m]
  {
    Report(Table(k, outcomes), Log(Fixtures(k), outcomes))
  }
}

=== FILE: roundrobin.dfy ===
/**
  RoundRobinTournament.run (Tournament.py:135-176): for each round, every pair
  (i, j) with i < j plays once in positional order; a strict winner gets 3
  points, a draw gives 1 to each side. The outcome of the n-th match is the
  n-th element of the outcome stream.
 */
module RoundRobin {
  import opened Common
  import opened Schedule
  import opened Standings

  /** One line of the history: match number, round, the two positions and the verdict. */
  datatype Entry = Entry(matchNo: nat, round: nat, first: nat, second: nat, result: Outcome)

  /** The returned standings (points by position) and history. */
  datatype Report = Report(standings: seq<nat>, history: seq<Entry>)

  lemma RoundsLength(rounds: nat, m: nat)
    requires rounds > 0
    ensures (rounds - 1) * m + m == rounds * m
  {
  }

  /** The fixtures of the first `rounds` rounds, in playing order. */
  function Fixtures(k: nat, rounds: nat): (s: seq<Fixture>)
    ensures |s| == rounds * Matches(k)
    ensures forall x :: 0 <= x < |s| ==> s[x].first < s[x].second < k
  {
    if rounds == 0 then []
    else
      PairsLength(0, k, 1);
      RoundsLength(rounds, Matches(k));
      Fixtures(k, rounds - 1) + Pairs(0, k, 1)
  }

  /** Each participant plays k - 1 matches per round. */
  lemma {:induction false} FixturesInvolving(k: nat, rounds: nat, p: nat)
    requires p < k
    ensures Involving(Fixtures(k, rounds), p) == rounds * (k - 1)
  {
    if rounds > 0 {
      PairsLength(0, k, 1);
      RoundsLength(rounds, Matches(k));
      InvolvingAppend(Fixtures(k, rounds - 1), Pairs(0, k, 1), p);
      FixturesInvolving(k, rounds - 1, p);
      EveryoneInvolved(k, 1, p);
      RoundsLength(rounds, k - 1);
    }
  }

  /** The history lines of one round, numbered on from `before`. */
  function RoundLog(fixtures: seq<Fixture>, outcomes: seq<Outcome>, round: nat, before: nat): (h: seq<Entry>)
    requires |outcomes| == |fixtures|
  {
    seq(|fixtures|, m requires 0 <= m < |fixtures| =>
      Entry(before + m + 1, round, fixtures[m].first, fixtures[m].second, outcomes[m]))
  }

  /** The history of the first `rounds` rounds: the n-th line records the n-th
      fixture and outcome under match number n + 1, in a round numbered from 1. */
  function History(k: nat, rounds: nat, outcomes: seq<Outcome>): (h: seq<Entry>)
    requires |outcomes| == rounds * Matches(k)
    ensures |h| == |outcomes|
    ensures forall m :: 0 <= m < |h| ==>
              && h[m].matchNo == m + 1
              && 1 <= h[m].round <= rounds
              && Fixture(h[m].first, h[m].second) == Fixtures(k, rounds)[m]
              && h[m].result == outcomes[m]
  {
    if rounds == 0 then []
    else
      PairsLength(0, k, 1);
      RoundsLength(rounds, Matches(k));
      var before := (rounds - 1) * Matches(k);
      var earlier := History(k, rounds - 1, outcomes[..before]);
      var last := RoundLog(Pairs(0, k, 1), outcomes[before..], rounds, before);
      var fixtures := Fixtures(k, rounds - 1) + Pairs(0, k, 1);
      assert Fixtures(k, rounds) == fixtures;
      var h := earlier + last;
      forall m | 0 <= m < |h|
        ensures h[m].matchNo == m + 1 && 1 <= h[m].round <= rounds
        ensures Fixture(h[m].first, h[m].second) == fixtures[m] && h[m].result == outcomes[m]
      {
        if m < before {
          assert h[m] == earlier[m] && outcomes[..before][m] == outcomes[m];
        } else {
          assert h[m] == last[m - before] && fixtures[m] == Pairs(0, k, 1)[m - before];
          assert outcomes[before..][m - before] == outcomes[m];
        }
      }
      h
  }

  /** The lines of the earlier rounds are those of the shorter history, and
      every line after them is logged in the last round. */
  lemma HistoryBlocks(k: nat, rounds: nat, outcomes: seq<Outcome>, m: nat)
    requires |outcomes| == rounds * Matches(k) && m < |outcomes|
    ensures rounds > 0
    ensures m < |Fixtures(k, rounds - 1)| ==>
              History(k, rounds, outcomes)[m]
              == History(k, rounds - 1, outcomes[..|Fixtures(k, rounds - 1)|])[m]
    ensures m >= |Fixtures(k, rounds - 1)| ==> History(k, rounds, outcomes)[m].round == rounds
  {
    PairsLength(0, k, 1);
    RoundsLength(rounds, Matches(k));
    var before := (rounds - 1) * Matches(k);
    var earlier := History(k, rounds - 1, outcomes[..before]);
    var last := RoundLog(Pairs(0, k, 1), outcomes[before..], rounds, before);
    assert History(k, rounds, outcomes) == earlier + last;
    if m >= before {
      assert History(k, rounds, outcomes)[m] == last[m - before];
    }
  }

  /** The round a history line records: match m (from 0) is logged in the
      round r whose fixtures contain it, after the r - 1 rounds before it and
      within the first r; with k(k-1)/2 matches per round that is
      r = m / (k(k-1)/2) + 1. */
  lemma {:induction false} HistoryRound(k: nat, rounds: nat, outcomes: seq<Outcome>, m: nat)
    requires |outcomes| == rounds * Matches(k) && m < |outcomes|
    ensures var r := History(k, rounds, outcomes)[m].round;
            1 <= r <= rounds && |Fixtures(k, r - 1)| <= m < |Fixtures(k, r)|
  {
    HistoryBlocks(k, rounds, outcomes, m);
    var before := |Fixtures(k, rounds - 1)|;
    if m < before {
      HistoryRound(k, rounds - 1, outcomes[..before], m);
    }
  }

  /** One round: every pair i < j < k exactly once, in positional order,
      k(k-1)/2 matches in all. */
  lemma RoundFixtures(k: nat, a: nat, b: nat)
    ensures Times(Pairs(0, k, 1), Fixture(a, b)) == if a < b < k then 1 else 0
    ensures InOrder(Pairs(0, k, 1))
    ensures |Pairs(0, k, 1)| == Matches(k) && 2 * Matches(k) == k * (k - 1)
  {
    PairsTimes(0, k, 1, a, b);
    PairsInOrder(0, k, 1);
    PairsLength(0, k, 1);
    MatchesClosedForm(k);
  }

  /** The final table of `rounds` rounds, every participant's record by position. */
  function Table(k: nat, rounds: nat, outcomes: seq<Outcome>): (t: seq<Stats>)
    requires |outcomes| == rounds * Matches(k)
    ensures |t| == k
    ensures forall p :: 0 <= p < k ==> t[p].games == rounds * (k - 1)
    ensures AllBalanced(t)
  {
    var t := PlayAll(FreshTable(k), Fixtures(k, rounds), outcomes);
    forall p | 0 <= p < k
      ensures t[p].games == rounds * (k - 1)
    {
      FixturesInvolving(k, rounds, p);
    }
    t
  }

  /** The number of passes of `for r in range(rounds)`: none for a count
      below 1. */
  function Played(rounds: int): nat {
    if rounds < 0 then 0 else rounds
  }

  /** RoundRobinTournament(k strategies, rounds).run(). */
  function Run(k: nat, rounds: int, outcomes: seq<Outcome>): (r: Report)
    requires |outcomes| == Played(rounds) * Matches(k)
    ensures |r.standings| == k
    ensures forall p :: 0 <= p < k ==> r.standings[p] == Table(k, Played(rounds), outcomes)[p].points
    ensures |r.history| == |outcomes|
    ensures forall m :: 0 <= m < |r.history| ==>
              && r.history[m].matchNo == m + 1
              && 1 <= r.history[m].round <= rounds
              && |Fixtures(k, r.history[m].round - 1)| <= m < |Fixtures(k, r.history[m].round)|
              && Fixture(r.history[m].first, r.history[m].second) == Fixtures(k, Played(rounds))[m]
              && r.history[m].result == outcomes[m]
  {
    var n := Played(rounds);
    var h := History(k, n, outcomes);
    forall m | 0 <= m < |h|
      ensures && h[m].matchNo == m + 1
              && 1 <= h[m].round <= rounds
              && |Fixtures(k, h[m].round - 1)| <= m < |Fixtures(k, h[m].round)|
              && Fixture(h[m].first, h[m].second) == Fixtures(k, n)[m]
              && h[m].result == outcomes[m]
    {
      HistoryRound(k, n, outcomes, m);
    }
    Report(PointsColumn(Table(k, n, outcomes)), h)
  }

  /** The round logged for match m (0-based) is m / Matches(k) + 1: the first
      Matches(k) matches are round 1, the next block round 2, and so on. */
  lemma RoundNumbers(k: nat, rounds: int, outcomes: seq<Outcome>, m: nat)
    requires |outcomes| == Played(rounds) * Matches(k)
    requires m < |outcomes|
    ensures Run(k, rounds, outcomes).history[m].round == m / Matches(k) + 1
  {
    var n := Played(rounds);
    assert Run(k, rounds, outcomes).history == History(k, n, outcomes);
    HistoryQuotient(k, n, outcomes, m);
  }

  /** The same for the log itself: line m carries round m / Matches(k) + 1. */
  lemma HistoryQuotient(k: nat, rounds: nat, outcomes: seq<Outcome>, m: nat)
    requires |outcomes| == rounds * Matches(k) && m < |outcomes|
    ensures History(k, rounds, outcomes)[m].round == m / Matches(k) + 1
  {
    var r := History(k, rounds, outcomes)[m].round;
    assert 1 <= r && |Fixtures(k, r - 1)| <= m < |Fixtures(k, r)| by {
      HistoryRound(k, rounds, outcomes, m);
    }
    BlockQuotient(k, r, m);
  }

  /** A match inside the block of round r has quotient r - 1 by the matches
      per round. */
  lemma BlockQuotient(k: nat, r: nat, m: nat)
    requires 1 <= r && |Fixtures(k, r - 1)| <= m < |Fixtures(k, r)|
    ensures m / Matches(k) == r - 1
  {
    assert |Fixtures(k, r)| == |Fixtures(k, r - 1)| + Matches(k);
    Quotient(m, Matches(k), r - 1);
  }

  /** q is the quotient of m by d when m lies in the q-th block of d. */
  lemma {:induction false} Quotient(m: nat, d: nat, q: nat)
    requires 0 < d && q * d <= m < q * d + d
    ensures m / d == q
  {
    if m / d < q {
      MulMono(m / d + 1, q, d);
    } else if m / d > q {
      MulMono(q + 1, m / d, d);
    }
  }

  /** Multiplying by the same factor keeps the order. */
  lemma {:induction false} MulMono(a: nat, b: nat, d: nat)
    requires a <= b
    ensures a * d <= b * d
  {
    if a < b {
      MulMono(a, b - 1, d);
      assert b * d == (b - 1) * d + d;
    }
  }

  /** With no round to play (`range` over a count below 1 is empty), nobody
      plays, the history is empty and every participant stands on 0 points. */
  lemma NoRounds(k: nat, rounds: int)
    requires rounds <= 0
    ensures Run(k, rounds, []).history == []
    ensures forall p :: 0 <= p < k ==> Run(k, rounds, []).standings[p] == 0
  {
    var t := Table(k, 0, []);
    assert Fixtures(k, 0) == [];
    assert t == FreshTable(k);
    forall p | 0 <= p < k
      ensures Run(k, rounds, []).standings[p] == 0
    {
      assert Run(k, rounds, []).standings[p] == t[p].points;
      assert t[p] == Fresh;
    }
  }

  /** The standings hand out 3 points per strict result and 2 per draw, and
      no participant collects more than 3 points per game it plays. */
  lemma StandingsTotals(k: nat, rounds: int, outcomes: seq<Outcome>)
    requires |outcomes| == Played(rounds) * Matches(k)
    ensures Sum(Run(k, rounds, outcomes).standings) == 3 * |outcomes| - Draws(outcomes)
    ensures forall p :: 0 <= p < k ==> Run(k, rounds, outcomes).standings[p] <= 3 * (Played(rounds) * (k - 1))
  {
    var n := Played(rounds);
    var t := Table(k, n, outcomes);
    PlayAllTotals(FreshTable(k), Fixtures(k, n), outcomes);
    FreshTotal(k);
    forall p | 0 <= p < k
      ensures t[p].points <= 3 * (n * (k - 1))
    {
      PointsPerGame(t[p]);
    }
  }
}

=== FILE: schedule.dfy ===
/**
  The fixture lists of the round-robin style tournaments: the nested loops
  `for i in range(k): for j in range(i + 1, k)` of Tournament.py, with each
  pair played `legs` times in a row (once per round in RoundRobinTournament
  and in a championship group, home and away in LeagueTournament).
 */
module Schedule {

  /** A scheduled match between two positions of the participant list. */
  datatype Fixture = Fixture(first: nat, second: nat)

  /** `legs` copies of one fixture. */
  function Repeat(f: Fixture, legs: nat): (r: seq<Fixture>)
    ensures |r| == legs
    ensures forall x :: 0 <= x < |r| ==> r[x] == f
  {
    if legs == 0 then [] else [f] + Repeat(f, legs - 1)
  }

  /** The inner loop for a fixed i: pairs (i, j), (i, j + 1), …, (i, k - 1). */
  function Row(i: nat, j: nat, k: nat, legs: nat): (r: seq<Fixture>)
    ensures forall x :: 0 <= x < |r| ==> r[x].first == i && j <= r[x].second < k
    decreases k - j
  {
    if j >= k then [] else Repeat(Fixture(i, j), legs) + Row(i, j + 1, k, legs)
  }

  /** The two nested loops from row i on: every pair (a, b) with i <= a < b < k,
      in positional order. */
  function Pairs(i: nat, k: nat, legs: nat): (r: seq<Fixture>)
    ensures forall x :: 0 <= x < |r| ==> i <= r[x].first < r[x].second < k
    decreases k - i
  {
    if i >= k then [] else Row(i, i + 1, k, legs) + Pairs(i + 1, k, legs)
  }

  /** The number of unordered pairs of k participants. */
  function Matches(k: nat): nat {
    if k == 0 then 0 else Matches(k - 1) + (k - 1)
  }

  lemma {:induction false} MatchesClosedForm(k: nat)
    ensures 2 * Matches(k) == k * (k - 1)
  {
    if k > 0 {
      MatchesClosedForm(k - 1);
      assert (k - 1) * (k - 2) + 2 * (k - 1) == k * (k - 1);
    }
  }

  lemma {:induction false} RowLength(i: nat, j: nat, k: nat, legs: nat)
    requires j <= k
    ensures |Row(i, j, k, legs)| == legs * (k - j)
    decreases k - j
  {
    if j < k {
      RowLength(i, j + 1, k, legs);
      assert legs + legs * (k - j - 1) == legs * (k - j);
    }
  }

  /** One pass of the nested loops plays legs * k(k-1)/2 matches. */
  lemma {:induction false} PairsLength(i: nat, k: nat, legs: nat)
    requires i <= k
    ensures |Pairs(i, k, legs)| == legs * Matches(k - i)
    decreases k - i
  {
    if i < k {
      RowLength(i, i + 1, k, legs);
      PairsLength(i + 1, k, legs);
      assert Matches(k - i) == Matches(k - i - 1) + (k - i - 1);
      assert legs * (k - i - 1) + legs * Matches(k - i - 1) == legs * Matches(k - i);
    }
  }

  // ---------------------------------------------------------------------------
  // How often a participant plays

  /** The number of fixtures in which participant p plays. */
  function Involving(s: seq<Fixture>, p: nat): nat {
    if |s| == 0 then 0
    else (if s[0].first == p || s[0].second == p then 1 else 0) + Involving(s[1..], p)
  }

  lemma {:induction false} InvolvingAppend(a: seq<Fixture>, b: seq<Fixture>, p: nat)
    ensures Involving(a + b, p) == Involving(a, p) + Involving(b, p)
  {
    if |a| > 0 {
      assert (a + b)[1..] == a[1..] + b;
      InvolvingAppend(a[1..], b, p);
    } else {
      assert a + b == b;
    }
  }

  lemma {:induction false} RepeatInvolving(f: Fixture, legs: nat, p: nat)
    ensures Involving(Repeat(f, legs), p) == if f.first == p || f.second == p then legs else 0
  {
    if legs > 0 {
      assert Repeat(f, legs)[1..] == Repeat(f, legs - 1);
      RepeatInvolving(f, legs - 1, p);
    }
  }

  lemma {:induction false} RowInvolving(i: nat, j: nat, k: nat, legs: nat, p: nat)
    requires i < j <= k
    ensures Involving(Row(i, j, k, legs), p)
            == if p == i then legs * (k - j) else if j <= p < k then legs else 0
    decreases k - j
  {
    if j < k {
      InvolvingAppend(Repeat(Fixture(i, j), legs), Row(i, j + 1, k, legs), p);
      RepeatInvolving(Fixture(i, j), legs, p);
      RowInvolving(i, j + 1, k, legs, p);
      assert legs + legs * (k - j - 1) == legs * (k - j);
    }
  }

  /** From row i on, a participant p >= i plays legs * (k - 1 - i) times and a
      participant p < i does not play. */
  lemma {:induction false} PairsInvolving(i: nat, k: nat, legs: nat, p: nat)
    requires i <= k && p < k
    ensures Involving(Pairs(i, k, legs), p) == if p < i then 0 else legs * (k - 1 - i)
    decreases k - i
  {
    if i < k {
      InvolvingAppend(Row(i, i + 1, k, legs), Pairs(i + 1, k, legs), p);
      RowInvolving(i, i + 1, k, legs, p);
      PairsInvolving(i + 1, k, legs, p);
      if p > i {
        assert legs + legs * (k - 1 - (i + 1)) == legs * (k - 1 - i);
      }
    }
  }

  /** In a full pass every participant plays legs * (k - 1) matches. */
  lemma EveryoneInvolved(k: nat, legs: nat, p: nat)
    requires p < k
    ensures Involving(Pairs(0, k, legs), p) == legs * (k - 1)
  {
    PairsInvolving(0, k, legs, p);
  }

  // ---------------------------------------------------------------------------
  // Which pairs play, and how often

  /** The number of times fixture f occurs in s. */
  function Times(s: seq<Fixture>, f: Fixture): nat {
    if |s| == 0 then 0
    else (if s[0] == f then 1 else 0) + Times(s[1..], f)
  }

  lemma {:induction false} TimesAppend(a: seq<Fixture>, b: seq<Fixture>, f: Fixture)
    ensures Times(a + b, f) == Times(a, f) + Times(b, f)
  {
    if |a| > 0 {
      assert (a + b)[1..] == a[1..] + b;
      TimesAppend(a[1..], b, f);
    } else {
      assert a + b == b;
    }
  }

  lemma {:induction false} RepeatTimes(f: Fixture, legs: nat, g: Fixture)
    ensures Times(Repeat(f, legs), g) == if f == g then legs else 0
  {
    if legs > 0 {
      assert Repeat(f, legs)[1..] == Repeat(f, legs - 1);
      RepeatTimes(f, legs - 1, g);
    }
  }

  lemma {:induction false} RowTimes(i: nat, j: nat, k: nat, legs: nat, a: nat, b: nat)
    ensures Times(Row(i, j, k, legs), Fixture(a, b)) == if a == i && j <= b < k then legs else 0
    decreases k - j
  {
    if j < k {
      TimesAppend(Repeat(Fixture(i, j), legs), Row(i, j + 1, k, legs), Fixture(a, b));
      RepeatTimes(Fixture(i, j), legs, Fixture(a, b));
      RowTimes(i, j + 1, k, legs, a, b);
    }
  }

  /** Every pair a < b < k with a >= i occurs exactly `legs` times, and no
      other fixture occurs. */
  lemma {:induction false} PairsTimes(i: nat, k: nat, legs: nat, a: nat, b: nat)
    ensures Times(Pairs(i, k, legs), Fixture(a, b)) == if i <= a < b < k then legs else 0
    decreases k - i
  {
    if i < k {
      TimesAppend(Row(i, i + 1, k, legs), Pairs(i + 1, k, legs), Fixture(a, b));
      RowTimes(i, i + 1, k, legs, a, b);
      PairsTimes(i + 1, k, legs, a, b);
    }
  }

  // ---------------------------------------------------------------------------
  // Positional order

  /** (i, j) is played no later than (i', j') in the nested loops. */
  predicate NoLater(f: Fixture, g: Fixture) {
    f.first < g.first || (f.first == g.first && f.second <= g.second)
  }

  predicate InOrder(s: seq<Fixture>) {
    forall x, y :: 0 <= x < y < |s| ==> NoLater(s[x], s[y])
  }

  lemma ConcatInOrder(a: seq<Fixture>, b: seq<Fixture>)
    requires InOrder(a) && InOrder(b)
    requires forall x, y :: 0 <= x < |a| && 0 <= y < |b| ==> NoLater(a[x], b[y])
    ensures InOrder(a + b)
  {
    forall x, y | 0 <= x < y < |a + b|
      ensures NoLater((a + b)[x], (a + b)[y])
    {
      if y < |a| {
        assert NoLater(a[x], a[y]);
      } else if x >= |a| {
        assert NoLater(b[x - |a|], b[y - |a|]);
      } else {
        assert NoLater(a[x], b[y - |a|]);
      }
    }
  }

  lemma {:induction false} RowInOrder(i: nat, j: nat, k: nat, legs: nat)
    ensures InOrder(Row(i, j, k, legs))
    decreases k - j
  {
    if j < k {
      RowInOrder(i, j + 1, k, legs);
      ConcatInOrder(Repeat(Fixture(i, j), legs), Row(i, j + 1, k, legs));
    }
  }

  /** The nested loops visit pairs in positional (lexicographic) order. */
  lemma {:induction false} PairsInOrder(i: nat, k: nat, legs: nat)
    ensures InOrder(Pairs(i, k, legs))
    decreases k - i
  {
    if i < k {
      RowInOrder(i, i + 1, k, legs);
      PairsInOrder(i + 1, k, legs);
      ConcatInOrder(Row(i, i + 1, k, legs), Pairs(i + 1, k, legs));
    }
  }
}

=== FILE: standings.dfy ===
/**
  The points tables of Tournament.py: one row of counters per participant,
  updated after every match by the shared rule (a strict winner gets 3 points
  and a win, the other side a loss; equal ratios give each side 1 point and a
  draw). Rows are held by position; for participants with distinct display
  names this is the name-keyed dictionary of the source.
 */
module Standings {
  import opened Common
  import opened Schedule

  /** One participant's counters. RoundRobinTournament keeps only `points`,
      the championship groups keep all but `games`. */
  datatype Stats = Stats(games: nat, wins: nat, losses: nat, draws: nat, points: nat)

  const Fresh: Stats := Stats(0, 0, 0, 0, 0)

  /** A new table: one row of zero counters per participant. */
  function FreshTable(k: nat): (t: seq<Stats>)
    ensures |t| == k
    ensures forall p :: 0 <= p < k ==> t[p] == Fresh
  {
    seq(k, _ => Fresh)
  }

  /** Every game is a win, a loss or a draw, and points are 3 per win and 1
      per draw. */
  predicate Balanced(s: Stats) {
    s.wins + s.losses + s.draws == s.games && s.points == 3 * s.wins + s.draws
  }

  /** A balanced row holds at most 3 points per game. */
  lemma PointsPerGame(s: Stats)
    requires Balanced(s)
    ensures s.points <= 3 * s.games
  {
  }

  predicate AllBalanced(t: seq<Stats>) {
    forall p :: 0 <= p < |t| ==> Balanced(t[p])
  }

  function Won(s: Stats): Stats {
    s.(games := s.games + 1, wins := s.wins + 1, points := s.points + 3)
  }

  function Lost(s: Stats): Stats {
    s.(games := s.games + 1, losses := s.losses + 1)
  }

  function Tied(s: Stats): Stats {
    s.(games := s.games + 1, draws := s.draws + 1, points := s.points + 1)
  }

  /** A fixture between two different rows of a table of k rows. */
  predicate Fits(f: Fixture, k: nat) {
    f.first < k && f.second < k && f.first != f.second
  }

  // ---------------------------------------------------------------------------
  // Column totals

  datatype Column = Games | Wins | Losses | DrawCount | Points

  function Get(s: Stats, c: Column): nat {
    match c
    case Games => s.games
    case Wins => s.wins
    case Losses => s.losses
    case DrawCount => s.draws
    case Points => s.points
  }

  /** The sum of one column over all rows. */
  function Total(t: seq<Stats>, c: Column): nat {
    if |t| == 0 then 0 else Get(t[0], c) + Total(t[1..], c)
  }

  lemma {:induction false} TotalUpdate(t: seq<Stats>, p: nat, s: Stats, c: Column)
    requires p < |t|
    ensures Total(t[p := s], c) == Total(t, c) - Get(t[p], c) + Get(s, c)
  {
    if p > 0 {
      assert t[p := s][1..] == t[1..][p - 1 := s];
      TotalUpdate(t[1..], p - 1, s, c);
    } else {
      assert t[p := s][1..] == t[1..];
    }
  }

  /** The points a match hands out: 3 to a strict winner, 1 to each side on a draw. */
  function Awarded(o: Outcome): nat {
    if o == Draw then 2 else 3
  }

  /** The table after one match between rows f.first and f.second. */
  function Record(table: seq<Stats>, f: Fixture, o: Outcome): (t: seq<Stats>)
    requires Fits(f, |table|)
    ensures |t| == |table|
    ensures forall p :: 0 <= p < |t| && p != f.first && p != f.second ==> t[p] == table[p]
    ensures t[f.first].games == table[f.first].games + 1
    ensures t[f.second].games == table[f.second].games + 1
    ensures o == FirstWins ==> t[f.first].points == table[f.first].points + 3
                               && t[f.second].points == table[f.second].points
    ensures o == SecondWins ==> t[f.second].points == table[f.second].points + 3
                                && t[f.first].points == table[f.first].points
    ensures o == Draw ==> t[f.first].points == table[f.first].points + 1
                          && t[f.second].points == table[f.second].points + 1
    ensures AllBalanced(table) ==> AllBalanced(t)
  {
    var a, b := f.first, f.second;
    var first := match o case FirstWins => Won(table[a]) case SecondWins => Lost(table[a]) case Draw => Tied(table[a]);
    var second := match o case FirstWins => Lost(table[b]) case SecondWins => Won(table[b]) case Draw => Tied(table[b]);
    assert Balanced(table[a]) && Balanced(table[b]) ==> Balanced(first) && Balanced(second);
    table[a := first][b := second]
  }

  /** What one match adds to a column total: 3 points, one win and one loss
      for a strict result, 2 points and two draws for a draw, 2 games always. */
  function Gain(o: Outcome, c: Column): nat {
    match c
    case Games => 2
    case Wins => if o == Draw then 0 else 1
    case Losses => if o == Draw then 0 else 1
    case DrawCount => if o == Draw then 2 else 0
    case Points => if o == Draw then 2 else 3
  }

  /** One match adds exactly its gain to every column total. */
  lemma RecordTotal(table: seq<Stats>, f: Fixture, o: Outcome, c: Column)
    requires Fits(f, |table|)
    ensures Total(Record(table, f, o), c) == Total(table, c) + Gain(o, c)
  {
    var a, b := f.first, f.second;
    var t := Record(table, f, o);
    var mid := t[b := table[b]];
    assert mid == table[a := t[a]];
    assert t == mid[b := t[b]];
    TotalUpdate(table, a, t[a], c);
    TotalUpdate(mid, b, t[b], c);
  }

  /** The tables after a sequence of matches, one outcome per fixture, in order. */
  function PlayAll(table: seq<Stats>, fixtures: seq<Fixture>, outcomes: seq<Outcome>): (t: seq<Stats>)
    requires |outcomes| == |fixtures|
    requires forall x :: 0 <= x < |fixtures| ==> Fits(fixtures[x], |table|)
    ensures |t| == |table|
    ensures forall p :: 0 <= p < |t| ==> t[p].games == table[p].games + Involving(fixtures, p)
    ensures AllBalanced(table) ==> AllBalanced(t)
    decreases |fixtures|
  {
    if |fixtures| == 0 then table
    else PlayAll(Record(table, fixtures[0], outcomes[0]), fixtures[1..], outcomes[1..])
  }

  /** The column totals after a sequence of matches: points 3 per strict
      result and 2 per draw, one win and one loss per strict result, two draws
      per draw. */
  lemma {:induction false} PlayAllTotals(table: seq<Stats>, fixtures: seq<Fixture>, outcomes: seq<Outcome>)
    requires |outcomes| == |fixtures|
    requires forall x :: 0 <= x < |fixtures| ==> Fits(fixtures[x], |table|)
    ensures Total(PlayAll(table, fixtures, outcomes), Points)
            == Total(table, Points) + 3 * |outcomes| - Draws(outcomes)
    ensures Total(PlayAll(table, fixtures, outcomes), Wins)
            == Total(table, Wins) + |outcomes| - Draws(outcomes)
    ensures Total(PlayAll(table, fixtures, outcomes), Losses)
            == Total(table, Losses) + |outcomes| - Draws(outcomes)
    ensures Total(PlayAll(table, fixtures, outcomes), DrawCount)
            == Total(table, DrawCount) + 2 * Draws(outcomes)
    decreases |fixtures|
  {
    if |fixtures| > 0 {
      var next := Record(table, fixtures[0], outcomes[0]);
      assert outcomes == [outcomes[0]] + outcomes[1..];
      DrawsAppend([outcomes[0]], outcomes[1..]);
      DrawsAtMost(outcomes[1..]);
      RecordTotal(table, fixtures[0], outcomes[0], Points);
      RecordTotal(table, fixtures[0], outcomes[0], Wins);
      RecordTotal(table, fixtures[0], outcomes[0], Losses);
      RecordTotal(table, fixtures[0], outcomes[0], DrawCount);
      PlayAllTotals(next, fixtures[1..], outcomes[1..]);
    }
  }

  /** The points column alone, as RoundRobinTournament reports it. */
  function PointsColumn(t: seq<Stats>): (s: seq<nat>)
    ensures |s| == |t|
    ensures forall p :: 0 <= p < |t| ==> s[p] == t[p].points
    ensures Sum(s) == Total(t, Points)
  {
    if |t| == 0 then [] else [t[0].points] + PointsColumn(t[1..])
  }

  /** Every column of a fresh table sums to 0. */
  lemma {:induction false} FreshTotal(k: nat)
    ensures Total(FreshTable(k), Games) == Total(FreshTable(k), Wins) == 0
    ensures Total(FreshTable(k), Losses) == Total(FreshTable(k), DrawCount) == 0
    ensures Total(FreshTable(k), Points) == 0
  {
    if k > 0 {
      assert FreshTable(k)[1..] == FreshTable(k - 1);
      FreshTotal(k - 1);
    }
  }
}

=== FILE: strategy.dfy ===
/**
  The four decision rules of strategy.py as pure functions.

  An envelope is its amount. `random.randint(0, len - 1)` and
  `random.choice(list)` are replaced by a tape of caller-chosen indices: the
  t-th draw of a play reads `tape[t]`, and at that point the list holds
  `n - t` envelopes (every rule draws at most once per envelope removed, plus
  once for its final choice). The console answers of the manual rule are a
  scripted sequence of strings. A play yields the envelopes left in the
  strategy's list and the envelope it keeps, if any.
 */
module Strategy {
  import opened Common

  /** A strategy's state after `play()`: its remaining list and `selected_envelope`. */
  datatype Play = Play(remaining: seq<nat>, selected: Option<nat>)

  /** The four strategy classes with their construction parameters. */
  datatype Strategy =
    | Manual                  // BaseStrategy
    | Automatic               // Automatic_BaseStrategy
    | NMax(limit: int)        // N_max_strategy(N)
    | Percent(percent: real)  // More_then_N_percent_group_strategy(percent)

  /** A tape of random indices fit for a play on n envelopes: the t-th draw is
      an index into a list of n - t envelopes, as randint(0, len - 1) returns. */
  predicate ValidTape(tape: seq<nat>, n: nat) {
    |tape| >= n && forall t :: 0 <= t < n ==> tape[t] < n - t
  }

  lemma TapeTail(tape: seq<nat>, n: nat)
    requires ValidTape(tape, n) && n > 0
    ensures ValidTape(tape[1..], n - 1)
  {
    forall t | 0 <= t < n - 1
      ensures tape[1..][t] < n - 1 - t
    {
      assert tape[1..][t] == tape[t + 1];
    }
  }

  /** `list.pop(i)`: the list without its i-th element. */
  function Pop(s: seq<nat>, i: nat): (r: seq<nat>)
    requires i < |s|
    ensures |r| == |s| - 1
    ensures multiset(r) + multiset{s[i]} == multiset(s)
    ensures forall j :: 0 <= j < i ==> r[j] == s[j]
    ensures forall j :: i <= j < |r| ==> r[j] == s[j + 1]
  {
    assert s == s[..i] + [s[i]] + s[i + 1..];
    s[..i] + s[i + 1..]
  }

  /** The envelopes an opening phase left in the list, and those it popped in pop order. */
  datatype Opening = Opening(remaining: seq<nat>, popped: seq<nat>)

  /** `count` iterations of `list.pop(random.randint(0, len(list) - 1))`,
      the opening loops of N_max_strategy and the percent strategy. */
  function OpenRandom(envs: seq<nat>, tape: seq<nat>, count: nat): (o: Opening)
    requires count <= |envs| && ValidTape(tape, |envs|)
    ensures |o.popped| == count
    ensures |o.remaining| == |envs| - count
    ensures multiset(o.remaining) + multiset(o.popped) == multiset(envs)
    ensures count > 0 ==> o.popped[0] == envs[tape[0]]
    decreases count
  {
    if count == 0 then Opening(envs, [])
    else
      TapeTail(tape, |envs|);
      var rest := OpenRandom(Pop(envs, tape[0]), tape[1..], count - 1);
      Opening(rest.remaining, [envs[tape[0]]] + rest.popped)
  }

  /** Python's `len(range(min(N, n)))`: how many envelopes a limit of N opens. */
  function OpenLimit(limit: int, n: nat): (c: nat)
    ensures c <= n
    ensures limit >= 0 ==> c == Min(limit, n)
    ensures limit <= 0 ==> c == 0
  {
    if limit <= 0 then 0 else Min(limit, n)
  }

  // ---------------------------------------------------------------------------
  // BaseStrategy: the manual rule (strategy.py:19-32)

  function UpperChar(c: char): char {
    if 'a' <= c <= 'z' then (c as int - 32) as char else c
  }

  /** `str.upper()` restricted to ASCII letters. */
  function Upper(s: string): (u: string)
    ensures |u| == |s|
  {
    seq(|s|, i requires 0 <= i < |s| => UpperChar(s[i]))
  }

  /** The answer that stops the manual loop. */
  predicate IsYes(answer: string) {
    Upper(answer) == "YES"
  }

  /** The position of the first stopping answer, or |answers| when there is none. */
  function FirstYes(answers: seq<string>): (f: nat)
    ensures f <= |answers|
    ensures f < |answers| ==> IsYes(answers[f])
    ensures forall t :: 0 <= t < f ==> !IsYes(answers[t])
  {
    if |answers| == 0 then 0
    else if IsYes(answers[0]) then 0
    else 1 + FirstYes(answers[1..])
  }

  /** BaseStrategy.play: each iteration draws an index (which fails on an empty
      list), then reads an answer; a stopping answer keeps the drawn envelope in
      the list and selects it, any other answer pops it. */
  function ManualPlay(envs: seq<nat>, tape: seq<nat>, answers: seq<string>): (r: Result<Play>)
    requires ValidTape(tape, |envs|)
    ensures r.Ok? <==> FirstYes(answers) < |answers| && FirstYes(answers) < |envs|
    ensures r == Err(EmptyRange) <==> |envs| <= FirstYes(answers)
    ensures r == Err(InputExhausted) <==> FirstYes(answers) == |answers| < |envs|
    ensures r.Ok? ==> r.value.remaining == OpenRandom(envs, tape, FirstYes(answers)).remaining
    ensures r.Ok? ==> r.value.selected == Some(r.value.remaining[tape[FirstYes(answers)]])
    decreases |envs|
  {
    if |envs| == 0 then Err(EmptyRange)
    else if |answers| == 0 then Err(InputExhausted)
    else if IsYes(answers[0]) then Ok(Play(envs, Some(envs[tape[0]])))
    else
      TapeTail(tape, |envs|);
      assert FirstYes(answers) == 1 + FirstYes(answers[1..]);
      ManualPlay(Pop(envs, tape[0]), tape[1..], answers[1..])
  }

  // ---------------------------------------------------------------------------
  // Automatic_BaseStrategy (strategy.py:43-44)

  /** Keeps one drawn envelope; `random.choice` raises IndexError on an empty list. */
  function AutomaticPlay(envs: seq<nat>, tape: seq<nat>): (r: Result<Play>)
    requires ValidTape(tape, |envs|)
    ensures r.Err? <==> |envs| == 0
    ensures r.Err? ==> r.fault == IndexOutOfRange
    ensures r.Ok? ==> r.value.remaining == envs
    ensures r.Ok? ==> r.value.selected.Some? && r.value.selected.value in envs
  {
    if |envs| == 0 then Err(IndexOutOfRange) else Ok(Play(envs, Some(envs[tape[0]])))
  }

  // ---------------------------------------------------------------------------
  // N_max_strategy (strategy.py:61-74)

  /** Pops min(N, n) drawn envelopes, then keeps a drawn envelope of those left,
      or selects None when none are left. */
  function NMaxPlay(limit: int, envs: seq<nat>, tape: seq<nat>): (p: Play)
    requires ValidTape(tape, |envs|)
    ensures |p.remaining| == |envs| - OpenLimit(limit, |envs|)
    ensures p.remaining == OpenRandom(envs, tape, OpenLimit(limit, |envs|)).remaining
    ensures multiset(p.remaining) <= multiset(envs)
    ensures p.selected.None? <==> |p.remaining| == 0
    ensures p.selected.Some? ==> p.selected.value in p.remaining
  {
    var c := OpenLimit(limit, |envs|);
    var o := OpenRandom(envs, tape, c);
    if |o.remaining| > 0 then Play(o.remaining, Some(o.remaining[tape[c]]))
    else Play(o.remaining, None)
  }

  // ---------------------------------------------------------------------------
  // More_then_N_percent_group_strategy (strategy.py:93-121)

  /** Python's `int(n * percent)`, which truncates toward zero; the product is
      taken exactly. */
  function SampleSize(n: nat, percent: real): (k: int)
    ensures percent >= 0.0 ==> 0 <= k && k as real <= n as real * percent < (k + 1) as real
    ensures percent <= 0.0 ==> k <= 0
  {
    var x := n as real * percent;
    if x >= 0.0 then x.Floor else -((-x).Floor)
  }

  /** The running maximum of the sampling loop and the envelope it remembers. */
  datatype Best = Best(amount: int, at: Option<nat>)

  /** The sampling loop's maximum over the popped amounts, in pop order: it
      starts at -1 with no envelope and moves only on a strictly larger amount,
      so it remembers the first popped envelope of maximal amount. */
  function SampleBest(popped: seq<nat>): (b: Best)
    ensures b.at.None? <==> |popped| == 0
    ensures b.at.None? ==> b.amount == -1
    ensures b.at.Some? ==> b.at.value < |popped| && popped[b.at.value] == b.amount
    ensures forall i :: 0 <= i < |popped| ==> popped[i] <= b.amount
    ensures b.at.Some? ==> forall i :: 0 <= i < b.at.value ==> popped[i] < b.amount
  {
    if |popped| == 0 then Best(-1, None)
    else
      var prior := SampleBest(popped[..|popped| - 1]);
      var last := popped[|popped| - 1];
      if last > prior.amount then Best(last, Some(|popped| - 1)) else prior
  }

  /** The scan of the remaining list: the position of the first envelope whose
      amount strictly exceeds `bar`, if any. */
  function FirstAbove(s: seq<nat>, bar: int): (r: Option<nat>)
    ensures r.Some? ==> r.value < |s| && s[r.value] > bar
    ensures r.Some? ==> forall i :: 0 <= i < r.value ==> s[i] <= bar
    ensures r.None? ==> forall i :: 0 <= i < |s| ==> s[i] <= bar
  {
    if |s| == 0 then None
    else if s[0] > bar then Some(0)
    else match FirstAbove(s[1..], bar)
      case None => None
      case Some(i) => Some(i + 1)
  }

  /** The percent strategy with its sample size already computed: pop
      min(k, n) drawn envelopes tracking their running maximum, then keep the
      first remaining envelope that beats it, falling back to the sample's
      maximal envelope. With an empty list the fallback is None, and reading
      its amount fails. */
  function PercentPlay(k: int, envs: seq<nat>, tape: seq<nat>): (r: Result<Play>)
    requires ValidTape(tape, |envs|)
    ensures r.Err? <==> |envs| == 0
    ensures r.Err? ==> r.fault == NoneAttribute
    ensures r.Ok? ==> r.value.remaining == OpenRandom(envs, tape, OpenLimit(k, |envs|)).remaining
    ensures r.Ok? ==> |envs| - |r.value.remaining| == OpenLimit(k, |envs|)
    ensures r.Ok? ==> r.value.selected.Some?
    ensures r.Ok? ==> r.value.selected.value in multiset(envs)
  {
    var o := OpenRandom(envs, tape, OpenLimit(k, |envs|));
    var b := SampleBest(o.popped);
    match FirstAbove(o.remaining, b.amount)
    case Some(i) =>
      assert o.remaining[i] in multiset(o.remaining);
      Ok(Play(o.remaining, Some(o.remaining[i])))
    case None =>
      if b.at.None? then Err(NoneAttribute)
      else
        assert o.popped[b.at.value] in multiset(o.popped);
        Ok(Play(o.remaining, Some(o.popped[b.at.value])))
  }

  /** The scan's verdict: either the kept envelope is the first remaining one
      whose amount beats the sample maximum (every earlier remaining envelope
      is at most that maximum, and the list is left as the sample left it), or
      nothing remaining beats it and the kept envelope is the sample's maximal
      one, which is no longer in the list. */
  lemma PercentSelection(k: int, envs: seq<nat>, tape: seq<nat>)
    requires ValidTape(tape, |envs|) && |envs| > 0
    ensures var o := OpenRandom(envs, tape, OpenLimit(k, |envs|));
            var bar := SampleBest(o.popped).amount;
            var p := PercentPlay(k, envs, tape).value;
            && PercentPlay(k, envs, tape).Ok?
            && p.remaining == o.remaining
            && ((exists i :: 0 <= i < |o.remaining| && o.remaining[i] > bar
                   && (forall j :: 0 <= j < i ==> o.remaining[j] <= bar)
                   && p.selected == Some(o.remaining[i]))
                || ((forall j :: 0 <= j < |o.remaining| ==> o.remaining[j] <= bar)
                    && p.selected == Some(bar) && bar in o.popped))
  {
    var o := OpenRandom(envs, tape, OpenLimit(k, |envs|));
    var bar := SampleBest(o.popped).amount;
    match FirstAbove(o.remaining, bar)
    case Some(i) =>
      assert o.remaining[i] > bar;
    case None =>
  }

  /** The strategy's `play()`, dispatched on its class. */
  function Run(s: Strategy, envs: seq<nat>, tape: seq<nat>, answers: seq<string>): Result<Play>
    requires ValidTape(tape, |envs|)
  {
    match s
    case Manual => ManualPlay(envs, tape, answers)
    case Automatic => AutomaticPlay(envs, tape)
    case NMax(limit) => Ok(NMaxPlay(limit, envs, tape))
    case Percent(percent) => PercentPlay(SampleSize(|envs|, percent), envs, tape)
  }

  /** Every rule only removes envelopes, and a selection comes from the
      original list. */
  lemma RunShrinks(s: Strategy, envs: seq<nat>, tape: seq<nat>, answers: seq<string>)
    requires ValidTape(tape, |envs|)
    requires Run(s, envs, tape, answers).Ok?
    ensures |Run(s, envs, tape, answers).value.remaining| <= |envs|
    ensures multiset(Run(s, envs, tape, answers).value.remaining) <= multiset(envs)
    ensures Run(s, envs, tape, answers).value.selected.Some? ==>
              Run(s, envs, tape, answers).value.selected.value in multiset(envs)
  {
  }
}
